=== FILE: README.md ===
# Sweep-FVG-OB strategy for NAS100: a Dafny model of its decision engine

This project models the per-bar decision logic of the `SweepFvgObNAS100`
strategy class in `bot.py`. It works on 15-minute NAS100 bars:

1. It builds a synthetic 4-hour candle from the 15-minute bars. When a
   candle completes, it may set a long or short bias.
2. Each bar it ages the strategy's pending entry limits and cancels the
   stale ones.
3. It stops for the bar when the daily loss cap is reached or no bias is
   set.
4. With a position open, it moves the stop to breakeven once the P/L
   reaches the recorded risk.
5. Otherwise, inside the trading window, it advances a three-stage setup:
   - a sell-side liquidity sweep in the New York sweep window;
   - a bullish displacement bar, which records a fair-value gap and an
     order block;
   - a confluence entry, which places a limit bracket (entry, stop,
     target) sized by risk and capped by margin.
6. Two broker callbacks update the strategy: a filled entry records the
   position's risk, and a closed trade adds its P/L to the day's loss
   counter.

The model is a pure state machine over exact reals:

- `Strategy.Step` is `next`.
- `Strategy.NotifyOrder` and `Strategy.NotifyTrade` are the callbacks.
- `Strategy.Apply` and `Strategy.Replay` run a stream of bars and
  notifications.

Calls to the broker (cancel, `buy_bracket`, stop orders) come out as a
list of `Intent`s. Everything `next` reads from the outside is an input
of the bar:
- the bars;
- the lookback lows;
- the EMA and ATR values;
- equity and cash;
- the broker's orders;
- the reference of the next entry order.

Places where the Python code raises become `Fault` values:
- a zero entry price divides by zero when sizing (`DivisionByZero`);
- `min` over an empty lookback list (`EmptyLookback`);
- an entry fill with no broker order at the next reference
  (`MissingStopOrder`).

The model follows the code as written. Where the code differs from the
strategy described in its header comment, the model keeps the code's
behaviour:

- **The bias is never set on real data.** The break-of-structure test
  compares the candle close with the running high and low. Those already
  include the current bar, so a well-formed bar with positive prices can
  never break out (`HigherTimeframe.NoBreakOnWellFormedBar`). The guard
  then stops every bar, and the strategy never places an order
  (`Properties.NeverTradesFromInit`).
- **The confluence score cannot miss.** Five of its six points are
  granted without a test, so the `score < 5` branch is dead
  (`Setups.Score`).
- **The entry zone is not an overlap.** The code takes the lowest and the
  highest of the gap midpoint, the order-block midpoint and the two band
  edges, that is their hull, clipped to the swing (`Setups.ConfluenceZone`).
  A gap and a block that do not overlap at all still give a wide zone
  (`Setups.ZoneIsHullNotOverlap`).
- **A recorded sweep never expires.** The header describes the
  displacement as the candle right after the sweep, but the code keeps
  waiting: a bar that is not a displacement leaves the sweep recorded, and
  the setup is only cleared once a bracket is placed or the size comes out
  non-positive (`Properties.SweepWaits`, `Properties.SweepNeverExpires`).
- **The order block is always the previous bar**, whatever its colour
  (`Setups.OrderBlockIgnoresColour`).
- **The size is not rounded to any lot increment**
  (`Sizing.RiskSizeExample`).
- **Breakeven fires on losses too.** The breakeven test uses the absolute
  P/L, so a 1R loss triggers the move just as a 1R gain does
  (`Properties.LossAlsoTriggersBreakeven`).
- **The daily loss cap also suspends breakeven management.** The guard
  comes before the position branch (`Properties.CapSuspendsBreakeven`).

Python's `round` is modelled as exact round-half-to-even on reals
(`Basics.RoundHalfEven`, `Basics.Quantize`).

## Model

| member | source | states |
|---|---|---|
| Market.InvertedWindowIsEmpty | bot.py:95-97 | the session window is a closed interval with no wrap past midnight, so a window whose start is after its end admits no bar |
| Market.DefaultsAreValid | bot.py:41-65 | the default parameters have a positive candle length and tick, a one-pip stop buffer, and a sweep window (13:30-14:30) inside the trading window (13:30-19:00) |
| Basics.RoundHalfEven | bot.py:241 | Python's `round` gives an integer within one half of its input, and the even one on a tie |
| Basics.MinOf | bot.py:192 | the minimum of a non-empty list is one of its elements and no element is below it |
| Basics.Quantize | bot.py:241 | rounding to a step gives a multiple of the step within half a step of the input |
| Basics.RoundIsNearest | bot.py:241 | Python's rounding picks an integer at least as close as any other integer |
| Sizing.MaxAffordable | bot.py:99-101 | the affordable lot count is the one whose notional value equals cash times leverage |
| Sizing.RiskSize | bot.py:103-108 | size is 0 when entry equals stop and fails only on a zero entry; otherwise it is at most the risk-budget size and at most the margin-affordable size, and equals one of them, so it is their minimum; for a positive entry the loss at the stop is within the risk budget and the notional within cash times leverage |
| Sizing.RiskSizeExample | bot.py:103-108 | 0.5 % of 100 000 over a 10-point stop is 0.5 lots, but margin caps it at 0.075 lots, which is returned without truncation to a lot step |
| HigherTimeframe.Accumulate | bot.py:112-120 | the running candle restarts on a period boundary and otherwise widens; it always covers the current bar and takes its close |
| HigherTimeframe.DecideBias | bot.py:125-138 | a bullish break above the EMA sets long, a bearish break below sets short, and anything else, including a missing EMA, keeps the bias |
| HigherTimeframe.Update | bot.py:111-138 | a completed candle takes the bias decision's verdict and any other bar keeps the bias; a change needs an EMA value and the matching break; a set bias never returns to none |
| HigherTimeframe.NoBreakOnWellFormedBar | bot.py:128-138 | with a non-negative filter, no break fires on a well-formed bar with positive prices, so the bias is unchanged |
| HigherTimeframe.CandleOfPeriod | bot.py:111-120 | started on a period boundary, the running candle over up to one period of bars is their highest high, lowest low and last close |
| Orders.AgeAll | bot.py:150-157 | each tracked entry order ages one bar; past the limit it is dropped, and a cancel is issued exactly when it expires while the broker still has it alive |
| Orders.Track | bot.py:262 | a newly placed entry order is watched from age 0 at the end of the book; other orders' ages are unchanged |
| Orders.TrackKeepsAgeBound | bot.py:262 | adding an order at age 0 keeps all ages within the limit |
| Orders.OrderLifetime | bot.py:150-157 | an entry order tracked at age a is a+n bars old after n bars while within the limit, and is gone for good once past it |
| Strategy.NewDay | bot.py:143-146 | the loss counter restarts exactly at the first bar of a new date and the stored day becomes the bar's |
| Strategy.Prelude | bot.py:141-157 | every bar resets the day, updates the candle and bias, ages the entry orders, emits only cancels for expired live orders, and leaves setup and position alone |
| Strategy.BreakevenMove | bot.py:164-180 | when due, each live stop is cancelled and resubmitted at the entry price on the closing side, and the flag is set exactly when such a stop existed; otherwise nothing changes |
| Strategy.BreakevenMoveCancelsStops | bot.py:164-180 | the breakeven move only cancels and resubmits stops; every reference it cancels is a live stop, and a cancel never comes without its replacement stop order |
| Setups.AtrUnit | bot.py:191 | an ATR that is missing or zero counts as 1, any other value is used as is, so the unit is never zero |
| Strategy.LiveStops | bot.py:169-170 | exactly the broker's live stop orders are selected: every selected reference is a live stop, every live stop is selected, and no reference is selected twice when the broker's references are distinct |
| Strategy.Resubmits | bot.py:169-178 | for each selected stop, a cancel followed by a replacement stop on the given side at the given price and size |
| Strategy.SweepStage | bot.py:187-204 | inside the sweep window an empty lookback raises; a sweep is recorded exactly when the bias is long and the bar pierces the lookback low by the ATR share and closes back above it |
| Strategy.DisplacementStage | bot.py:206-223 | a recorded sweep becomes displaced exactly on a bullish body of at least the ATR ratio |
| Setups.Displace | bot.py:212-221 | the displaced record keeps the sweep low, the impulse bar's range, a gap from its low down to the high two bars back, and the previous bar as order block |
| Setups.OrderBlockIgnoresColour | bot.py:219-221 | the order block is the previous bar even when that bar rose |
| Setups.SweepExample | bot.py:191-195 | with low 100, ATR 2 and ratio 0.1, a 0.3-point pierce that closes back above sweeps and a 0.1-point pierce does not |
| Setups.ConfluenceZone | bot.py:228-235 | the zone stays between the sweep low and the displacement high; for an upward swing it contains the whole 0.62-0.79 band; the gap midpoint and the order-block midpoint lie in it whenever they lie within the swing; its low is the sweep low or one of the four levels, and its high is the displacement high or one of them |
| Setups.ZoneIsHullNotOverlap | bot.py:228-235 | a gap at 109-110 and a block at 101-102 over a 100-120 swing, which do not overlap, give the zone 101.5-115.8 |
| Setups.ZoneMid | bot.py:236-240 | the unrounded entry lies between the sweep low and the displacement high for an upward swing |
| Setups.Score | bot.py:243-252 | the score is 5 or 6, 6 exactly in the sweep window, so it always reaches the threshold |
| Setups.PlanEntry | bot.py:241-260 | the entry is on the 0.25 grid near the zone mid, the stop on the tick grid near the buffered sweep low, and the target is the rrTarget multiple of the risk to the cent |
| Strategy.PlacedBracketIsSound | bot.py:254-261 | a bracket with positive size has its loss at the stop within the risk budget, its notional within the margin cap, and its prices on their grids |
| Strategy.EntryStage | bot.py:225-265 | the displaced setup is always cleared; it fails exactly when sizing fails; a positive risk size places exactly the planned bracket at that size and tracks its entry order, and a non-positive size places nothing |
| Strategy.Detect | bot.py:186-265 | exactly one stage runs: an empty setup runs the sweep stage (and fails exactly when it does), a swept setup the displacement stage, a displaced setup the entry stage; the setup only moves forward and a bracket comes only from a displaced setup |
| Strategy.Manage | bot.py:164-265 | an open position gets exactly the breakeven move, keeping setup and orders and placing no bracket; a flat position never moves the stop, does nothing outside the trading window and runs the stage dispatch inside it; a cancel names a live stop only together with its replacement |
| Strategy.Step | bot.py:141-265 | a blocked bar does exactly the prelude; an open position places no bracket; a flat bar outside the trading window does only the prelude; every order other than the new entry ages one bar; cancels are the expired live entry orders plus live stops that are being replaced; any bracket is sound, tracked at age 0 and comes from a displaced setup; the position changes only in its flag, set only by a due breakeven move |
| Strategy.StepUnblocked | bot.py:141-265 | an unblocked bar fails exactly when the post-guard part fails, and otherwise ends in that part's state with the prelude's cancels ahead of its intents |
| Strategy.NotifyOrder | bot.py:268-277 | an entry fill records as risk the loss at the stop held by the next reference and re-arms breakeven; it fails if that order is missing; other notifications change nothing |
| Strategy.NotifyTrade | bot.py:279-282 | a closed trade adds exactly its P/L to the day's total; nothing else changes |
| Strategy.Apply | bot.py:141-282 | notifications emit nothing and never move the setup; the breakeven flag changes only on an entry fill or a breakeven move |
| Properties.UnbiasedStep | bot.py:128-162 | without a bias, a bar with positive prices succeeds and does nothing past the guard |
| Properties.BiasStaysUnset | bot.py:128-162 | over any stream of positive bars and notifications, the bias stays unset, the setup stays put, and only cancels are emitted |
| Properties.InertRun | bot.py:141-162 | with no bias and no entry orders, positive bars produce no intents at all |
| Properties.NeverTradesFromInit | bot.py:68-85 | a freshly built strategy with default parameters never emits any order on positive bars |
| Properties.BreakevenLatched | bot.py:164-180 | once moved, the stop is not moved again until the next entry fill |
| Properties.BreakevenAtMostOncePerFill | bot.py:164-180 | between entry fills, at most one event moves the stop to breakeven |
| Properties.BracketNeedsThreeBars | bot.py:186-265 | from no setup, neither of the first two events places a bracket |
| Properties.FilledBracketRiskWithinBudget | bot.py:268-271 | when a placed bracket fills at its limit, the recorded risk is its loss at the stop and within the risk budget |
| Properties.LossAlsoTriggersBreakeven | bot.py:167 | a 1R loss triggers the breakeven move just as a 1R gain does |
| Properties.DailyCapExample | bot.py:160-162 | with the 1 % default cap and 100 000 equity, the strategy is blocked exactly when the day's P/L is -1 000 or worse |
| Properties.CapSuspendsBreakeven | bot.py:159-180 | while the daily cap is hit, a position due for breakeven is left untouched |
| Properties.DisplacedSetupPlacesPlannedBracket | bot.py:254-262 | a flat, unblocked strategy with a displaced setup, in the trading window, places the planned bracket at the risk size whenever that size is positive, clears the setup and tracks the entry at age 0 |
| Properties.StepMovesStop | bot.py:164-179 | on an unblocked bar an open position that is due, with live stops, has every live stop cancelled, a closing stop at the entry price submitted, and the flag set |
| Properties.StepRecordsSweep | bot.py:182-204 | from an empty setup a bar records a sweep exactly when it passes the guard flat, lies in both windows, the bias after this bar's candle update is long and the bar sweeps the lowest lookback low; the recorded level is the bar's low |
| Properties.SweepWaits | bot.py:206-223 | with a sweep recorded, a bar that is not a displacement never fails and leaves the recorded sweep in place, whatever the guard or the window |
| Properties.SweepNeverExpires | bot.py:206-223 | through any run of events without a displacement bar, a recorded sweep is still the pending setup at the end |
| Properties.StepRecordsDisplacement | bot.py:182-223 | a recorded sweep becomes displaced exactly when the bar passes the guard flat, lies in the trading window and has a bullish body of at least the ATR ratio; the record is the displacement record of that bar |
| Properties.DailyLossIsClosedPnl | bot.py:143-146 | within one trading day the loss counter equals its start plus the P/L of the closed trades |

## Left out

- The EMA and ATR indicators are not computed. Their current values are inputs of each bar, and an ATR of zero or missing counts as 1.
- The lookback slice of lows (`low.get`) is not computed. The lows it yields are an input; an empty slice raises.
- Backtrader's broker, orders, positions and the bracket order mechanics are not modelled. Broker actions are intents. The position's size, price and P/L are set by a position-update event. The broker's order list is a snapshot taken per bar.
- Orders submitted during the breakeven loop are not revisited by that same loop: the model iterates a snapshot of the broker's orders.
- Floating-point arithmetic is not modelled. Prices are exact reals, and Python's `round` is exact round-half-to-even, including for `round(x, 2)`.
- Logging (`_log`) and printing are not modelled.
- The short side is not modelled, because the code has none: setups start only on a long bias.
- The strategy's `ema_period`, `atr_period` and `sweep_lookback` parameters only shape the indicator and lookback inputs, so they are not fields of `Params`.
- The starting `None` values of the running candle are 0.0, because the first bar always overwrites them.
- Strategy.Flat: the original position has no `risk` or `break_even` attribute until the first entry fill, so a `next` with an open position before any fill would raise. The model starts them at 0.0 and false instead, which makes a position seen before any fill due for the breakeven move at once.
- ValidParams: every operation requires `htfBars > 0` and `tickSize > 0`. With `htf_bars == 0` the original raises on every bar, and with `tick_size == 0` it raises at the entry stage. With a negative tick it rounds to the negative step. These parameter errors are not modelled as faults.
- run_smc_bot.py, data_loader.py, test_bot.py and test_custom_params.py (data loading, the backtest runner, the tests) are not part of this model.

=== FILE: basics.dfy ===
/** The optional value, the result type whose failures propagate with `:-`
    (standing for a Python exception), and the small real-number helpers the
    strategy relies on: absolute value, min/max, the minimum of a list, and Python's
    `round` (nearest integer, ties to even). */
module Basics {

  datatype Option<+T> = None | Some(value: T)

  /** Success carries a value; Failure carries the reason the source would raise. */
  datatype Result<+T, +E> = Success(value: T) | Failure(error: E) {

    predicate IsFailure() {
      Failure?
    }

    function PropagateFailure<U>(): Result<U, E>
      requires Failure?
    {
      Failure(error)
    }

    function Extract(): T
      requires Success?
    {
      value
    }
  }

  function Abs(x: real): (r: real)
    ensures r >= 0.0
    ensures r == x || r == -x
  {
    if x < 0.0 then -x else x
  }

  function Min(a: real, b: real): (r: real)
    ensures r <= a && r <= b
    ensures r == a || r == b
  {
    if a <= b then a else b
  }

  function Max(a: real, b: real): (r: real)
    ensures r >= a && r >= b
    ensures r == a || r == b
  {
    if a >= b then a else b
  }

  /** Python's `min` over a non-empty list: a member of the list below or equal to every member. */
  function MinOf(xs: seq<real>): (m: real)
    requires |xs| > 0
    ensures forall i :: 0 <= i < |xs| ==> m <= xs[i]
    ensures exists i :: 0 <= i < |xs| && xs[i] == m
  {
    if |xs| == 1 then xs[0]
    else
      var rest := MinOf(xs[1..]);
      assert forall i :: 1 <= i < |xs| ==> xs[i] == xs[1..][i - 1];
      Min(xs[0], rest)
  }

  /** Python's `round(x)`: the nearest integer, and the even one of two equally near. */
  function RoundHalfEven(x: real): (k: int)
    ensures Abs(x - k as real) <= 0.5
    ensures Abs(x - k as real) == 0.5 ==> k % 2 == 0
  {
    var f := x.Floor;
    var d := x - f as real;
    if d < 0.5 then f
    else if d > 0.5 then f + 1
    else if f % 2 == 0 then f
    else f + 1
  }

  /** No integer is strictly nearer to `x` than its rounding. */
  lemma RoundIsNearest(x: real, j: int)
    ensures Abs(x - RoundHalfEven(x) as real) <= Abs(x - j as real)
  {
    var f := x.Floor;
    assert f as real <= x < f as real + 1.0;
    if j <= f {
      assert x - j as real >= x - f as real;
    } else {
      assert j as real - x >= f as real + 1.0 - x;
    }
  }

  /** `x` is a whole number of `step`s. */
  predicate IsMultipleOf(x: real, step: real)
    requires step != 0.0
  {
    (x / step).Floor as real == x / step
  }

  lemma ScaledHalf(d: real, step: real)
    requires step > 0.0
    requires Abs(d) <= 0.5
    ensures Abs(d * step) <= step / 2.0
  {
    if d >= 0.0 {
      assert d * step <= 0.5 * step;
    } else {
      assert -d * step <= 0.5 * step;
    }
  }

  /** `round(x / step) * step`: the multiple of `step` nearest to `x`. */
  function Quantize(x: real, step: real): (r: real)
    requires step > 0.0
    ensures IsMultipleOf(r, step)
    ensures Abs(r - x) <= step / 2.0
  {
    var q := x / step;
    var k := RoundHalfEven(q);
    assert x == q * step;
    assert k as real * step - x == (k as real - q) * step;
    assert (k as real * step) / step == k as real;
    ScaledHalf(k as real - q, step);
    k as real * step
  }
}

=== FILE: htf.dfy ===
/** The synthetic 4-hour candle built from 15-minute bars, and the bias it sets
    when a candle completes. */
module HigherTimeframe {
  import opened Basics
  import opened Market

  /** The running candle (`_ht_high`, `_ht_low`, `_ht_close`), the number of
      bars seen (`_bar_count`) and `htf_bias`. */
  datatype Htf = Htf(high: real, low: real, close: real, count: nat, bias: Bias)

  /** Before the first bar. The original starts the three prices as `None`;
      they are never read before the first bar overwrites them, because a
      count of 0 takes the reset branch. */
  const Fresh: Htf := Htf(0.0, 0.0, 0.0, 0, NoBias)

  /** Bullish break of structure: the close is above the moving average and
      above the candle high raised by the filter. */
  predicate BullishBreak(close: real, high: real, ema: real, bosFilter: real)
  {
    close > ema && close > high * (1.0 + bosFilter)
  }

  /** Bearish break of structure, the mirror image. */
  predicate BearishBreak(close: real, low: real, ema: real, bosFilter: real)
  {
    close < ema && close < low * (1.0 - bosFilter)
  }

  /** Folds one bar into the running candle: a bar at a period boundary
      starts a new candle, any other bar widens it; the close is always the
      latest bar's. The bias is left alone. */
  function Accumulate(h: Htf, bar: Bar, htfBars: nat): (r: Htf)
    requires htfBars > 0
    ensures r.count == h.count + 1 && r.close == bar.close && r.bias == h.bias
    ensures r.high >= bar.high && r.low <= bar.low
    ensures h.count % htfBars == 0 ==> r.high == bar.high && r.low == bar.low
    ensures h.count % htfBars != 0 ==> r.high == Max(h.high, bar.high) && r.low == Min(h.low, bar.low)
  {
    if h.count % htfBars == 0 then
      h.(high := bar.high, low := bar.low, close := bar.close, count := h.count + 1)
    else
      h.(high := Max(h.high, bar.high), low := Min(h.low, bar.low), close := bar.close, count := h.count + 1)
  }

  /** The bias decision on a completed candle: a bullish break sets `Long`, a
      bearish break sets `Short`, anything else (including a missing moving
      average) keeps the current bias. */
  function DecideBias(h: Htf, ema: Option<real>, bosFilter: real): (b: Bias)
    ensures ema.Some? && BullishBreak(h.close, h.high, ema.value, bosFilter) ==> b == Long
    ensures ema.Some? && BearishBreak(h.close, h.low, ema.value, bosFilter) ==> b == Short
    ensures ema.None? ==> b == h.bias
    ensures ema.Some? && !BullishBreak(h.close, h.high, ema.value, bosFilter)
              && !BearishBreak(h.close, h.low, ema.value, bosFilter)
            ==> b == h.bias
  {
    match ema
    case None => h.bias
    case Some(e) =>
      if h.close > e then
        (if h.close > h.high * (1.0 + bosFilter) then Long else h.bias)
      else if h.close < e then
        (if h.close < h.low * (1.0 - bosFilter) then Short else h.bias)
      else h.bias
  }

  /** `_update_htf`: accumulate the bar, and only when the incremented count
      completes a period decide the bias. The bias never returns to `NoBias`
      once set. */
  function Update(h: Htf, bar: Bar, ema: Option<real>, p: Params): (r: Htf)
    requires p.htfBars > 0
    ensures r.(bias := h.bias) == Accumulate(h, bar, p.htfBars)
    ensures r.count % p.htfBars != 0 ==> r.bias == h.bias
    ensures r.bias != h.bias ==>
              && r.count % p.htfBars == 0
              && ema.Some?
              && (|| (r.bias == Long && BullishBreak(r.close, r.high, ema.value, p.bosFilter))
                  || (r.bias == Short && BearishBreak(r.close, r.low, ema.value, p.bosFilter)))
    ensures h.bias != NoBias ==> r.bias != NoBias
    ensures r.count % p.htfBars == 0 ==> r.bias == DecideBias(Accumulate(h, bar, p.htfBars), ema, p.bosFilter)
  {
    var c := Accumulate(h, bar, p.htfBars);
    if c.count % p.htfBars != 0 then c
    else c.(bias := DecideBias(c, ema, p.bosFilter))
  }

  /** Because the running high already includes the current bar, a close
      inside a well-formed bar with positive prices can never exceed it, so no
      break of structure ever fires and the bias never changes. */
  lemma NoBreakOnWellFormedBar(h: Htf, bar: Bar, ema: Option<real>, p: Params)
    requires p.htfBars > 0 && p.bosFilter >= 0.0
    requires WellFormed(bar) && bar.low > 0.0
    requires h.low >= 0.0
    ensures Update(h, bar, ema, p).bias == h.bias
    ensures Update(h, bar, ema, p).low >= 0.0
  {
    var c := Accumulate(h, bar, p.htfBars);
    assert c.high >= bar.high >= bar.close;
    assert c.high * (1.0 + p.bosFilter) == c.high + c.high * p.bosFilter;
    assert c.high * p.bosFilter >= 0.0;
    assert 0.0 <= c.low <= bar.low <= bar.close;
    assert c.low * (1.0 - p.bosFilter) == c.low - c.low * p.bosFilter;
    assert c.low * p.bosFilter >= 0.0;
    if ema.Some? {
      assert !BullishBreak(c.close, c.high, ema.value, p.bosFilter);
      assert !BearishBreak(c.close, c.low, ema.value, p.bosFilter);
    }
  }

  /** Highest high of a non-empty run of bars. */
  function MaxHigh(bars: seq<Bar>): real
    requires |bars| > 0
  {
    if |bars| == 1 then bars[0].high else Max(MaxHigh(bars[..|bars| - 1]), bars[|bars| - 1].high)
  }

  /** Lowest low of a non-empty run of bars. */
  function MinLow(bars: seq<Bar>): real
    requires |bars| > 0
  {
    if |bars| == 1 then bars[0].low else Min(MinLow(bars[..|bars| - 1]), bars[|bars| - 1].low)
  }

  /** The running candle after feeding `bars` in order. */
  function AccumulateAll(h: Htf, bars: seq<Bar>, htfBars: nat): Htf
    requires htfBars > 0
  {
    if |bars| == 0 then h
    else Accumulate(AccumulateAll(h, bars[..|bars| - 1], htfBars), bars[|bars| - 1], htfBars)
  }

  lemma MulAtLeast(n: int, m: int)
    requires n > 0 && m >= 1
    ensures n * m >= n
  {
    assert n * m == n + n * (m - 1);
  }

  lemma ModStep(c: nat, k: nat, n: nat)
    requires n > 0 && c % n == 0 && k < n
    ensures (c + k) % n == k
  {
    var q := c / n;
    var d := (c + k) / n;
    var r := (c + k) % n;
    assert c == n * q;
    assert c + k == n * d + r;
    assert n * (q - d) == r - k;
    if q - d >= 1 {
      MulAtLeast(n, q - d);
    } else if d - q >= 1 {
      MulAtLeast(n, d - q);
    }
    assert q == d;
  }

  /** Started at a period boundary, the running candle after up to
      `htfBars` bars is exactly the candle of those bars: their highest high,
      their lowest low and the last close. */
  lemma {:induction false} CandleOfPeriod(h: Htf, bars: seq<Bar>, htfBars: nat)
    requires htfBars > 0 && h.count % htfBars == 0
    requires 0 < |bars| <= htfBars
    ensures AccumulateAll(h, bars, htfBars).count == h.count + |bars|
    ensures AccumulateAll(h, bars, htfBars).high == MaxHigh(bars)
    ensures AccumulateAll(h, bars, htfBars).low == MinLow(bars)
    ensures AccumulateAll(h, bars, htfBars).close == bars[|bars| - 1].close
  {
    var init := bars[..|bars| - 1];
    if |bars| == 1 {
      assert init == [];
      assert AccumulateAll(h, init, htfBars) == h;
    } else {
      CandleOfPeriod(h, init, htfBars);
      var c := AccumulateAll(h, init, htfBars);
      ModStep(h.count, |init|, htfBars);
      assert c.count % htfBars != 0;
    }
  }
}

=== FILE: market.dfy ===
/** The vocabulary of the strategy: instrument constants, bars, bias, the
    parameter record with its defaults, session windows, and the ways a bar's
    evaluation can raise in the original program. */
module Market {

  /** Dollars per index point of one NAS100 CFD lot. */
  const ContractMult: real := 100.0

  /** One "pip" of the strategy, 0.1 index point. */
  const Point: real := 0.1

  /** Higher-timeframe direction; `NoBias` is Python's `None`. */
  datatype Bias = NoBias | Long | Short

  /** A 15-minute bar. `day` numbers the calendar date and `time` is the
      time of day in seconds after midnight (UTC). */
  datatype Bar = Bar(open: real, high: real, low: real, close: real, day: int, time: nat)

  /** A bar whose open and close lie inside its high-low range. */
  predicate WellFormed(b: Bar)
  {
    b.low <= b.open <= b.high && b.low <= b.close <= b.high
  }

  /** A time of day `h:m`, in seconds after midnight. */
  function Clock(h: nat, m: nat): (t: nat)
    requires h < 24 && m < 60
    ensures t < 86400
  {
    h * 3600 + m * 60
  }

  /** `_in_window`: the bar's time lies in the closed interval `[start, end]`;
      there is no wrap past midnight. */
  predicate InWindow(t: nat, start: nat, end: nat)
  {
    start <= t <= end
  }

  /** An inclusive window whose start is after its end contains no time at all. */
  lemma InvertedWindowIsEmpty(t: nat, start: nat, end: nat)
    requires end < start
    ensures !InWindow(t, start, end)
  {
  }

  /** The strategy's parameters (times are seconds after midnight). */
  datatype Params = Params(
    riskPerTrade: real,
    dailyLossCap: real,
    leverage: real,
    rrTarget: real,
    tickSize: real,
    stopBuffer: real,
    htfBars: nat,
    bosFilter: real,
    nySweepStart: nat,
    nySweepEnd: nat,
    tradeStart: nat,
    tradeEnd: nat,
    sweepPierceAtr: real,
    dispBodyAtr: real,
    maxOrderBars: nat)

  /** What the arithmetic needs: `htfBars` is a modulus and `tickSize` a divisor. */
  predicate ValidParams(p: Params)
  {
    p.htfBars > 0 && p.tickSize > 0.0
  }

  /** The parameter defaults of the strategy class. */
  const Defaults: Params := Params(
    riskPerTrade := 0.005,
    dailyLossCap := 0.01,
    leverage := 15.0,
    rrTarget := 1.5,
    tickSize := 0.01,
    stopBuffer := 0.1,
    htfBars := 16,
    bosFilter := 0.002,
    nySweepStart := 13 * 3600 + 30 * 60,
    nySweepEnd := 14 * 3600 + 30 * 60,
    tradeStart := 13 * 3600 + 30 * 60,
    tradeEnd := 19 * 3600,
    sweepPierceAtr := 0.1,
    dispBodyAtr := 1.2,
    maxOrderBars := 20)

  /** The defaults are usable, the stop buffer is one pip, and the sweep
      window is the 13:30-14:30 part of the 13:30-19:00 trading window. */
  lemma DefaultsAreValid()
    ensures ValidParams(Defaults)
    ensures Defaults.stopBuffer == Point
    ensures Defaults.nySweepStart == Clock(13, 30) && Defaults.nySweepEnd == Clock(14, 30)
    ensures Defaults.tradeStart == Clock(13, 30) && Defaults.tradeEnd == Clock(19, 0)
    ensures forall t: nat :: InWindow(t, Defaults.nySweepStart, Defaults.nySweepEnd)
                             ==> InWindow(t, Defaults.tradeStart, Defaults.tradeEnd)
  {
  }

  /** The places where evaluating a bar or a notification raises in the original:
      a zero entry price divides by zero when sizing, `min` of an empty
      lookback list, and an entry fill whose stop order (reference + 1) the
      broker does not know. */
  datatype Fault = DivisionByZero | EmptyLookback | MissingStopOrder
}

=== FILE: orders.dfy ===
/** The strategy's book of entry orders (`order_refs`, reference -> age in
    bars), the broker's view of its orders, and the per-bar aging that cancels
    stale limits. */
module Orders {
  import opened Basics

  /** An entry order being watched, with the bars it has waited. */
  datatype TrackedOrder = TrackedOrder(ref: int, age: nat)

  /** What the broker reports about one of its orders: its reference, whether
      it is a stop order, whether it is still alive, and the price it was
      created with. */
  datatype BrokerOrder = BrokerOrder(ref: int, isStop: bool, alive: bool, createdPrice: real)

  /** The age recorded for `ref`, if it is tracked. */
  function AgeOf(t: seq<TrackedOrder>, ref: int): Option<nat>
  {
    if |t| == 0 then None
    else if t[0].ref == ref then Some(t[0].age)
    else AgeOf(t[1..], ref)
  }

  /** Each reference is tracked at most once, as the keys of a dictionary are. */
  predicate UniqueRefs(t: seq<TrackedOrder>)
  {
    |t| == 0 || (AgeOf(t[1..], t[0].ref).None? && UniqueRefs(t[1..]))
  }

  /** The tracked orders in insertion order, the order in which the original
      walks its dictionary. */
  type Registry = t: seq<TrackedOrder> | UniqueRefs(t) witness []

  /** `get_order_by_ref`: the broker's order with this reference, if any. */
  function Find(broker: seq<BrokerOrder>, ref: int): (r: Option<BrokerOrder>)
    ensures r.Some? ==> r.value.ref == ref && r.value in broker
    ensures r.None? <==> forall i :: 0 <= i < |broker| ==> broker[i].ref != ref
  {
    if |broker| == 0 then None
    else if broker[0].ref == ref then Some(broker[0])
    else
      var r := Find(broker[1..], ref);
      assert forall i :: 1 <= i < |broker| ==> broker[i] == broker[1..][i - 1];
      r
  }

  /** `o and o.alive()` for the order with this reference. */
  predicate IsAlive(broker: seq<BrokerOrder>, ref: int)
  {
    var o := Find(broker, ref);
    o.Some? && o.value.alive
  }

  /** The age an order has after one more bar, or `None` once that exceeds
      the limit and it is dropped. */
  function NextAge(a: Option<nat>, maxBars: nat): Option<nat>
  {
    match a
    case None => None
    case Some(n) => if n + 1 > maxBars then None else Some(n + 1)
  }

  /** A tracked order whose next age exceeds the limit. */
  predicate Expires(t: seq<TrackedOrder>, ref: int, maxBars: nat)
  {
    AgeOf(t, ref).Some? && AgeOf(t, ref).value + 1 > maxBars
  }

  /** Every tracked order has waited at most `bound` bars. */
  predicate AgesAtMost(t: seq<TrackedOrder>, bound: nat)
  {
    forall i :: 0 <= i < |t| ==> t[i].age <= bound
  }

  /** The registry after aging and the references to cancel, in order. */
  datatype Aging = Aging(kept: Registry, cancels: seq<int>)

  /** One bar of aging: every tracked order gets one bar older; one whose age
      exceeds `maxBars` is dropped, and cancelled only if the broker still
      has it alive. */
  function AgeAll(t: Registry, maxBars: nat, broker: seq<BrokerOrder>): (r: Aging)
    ensures forall ref :: AgeOf(r.kept, ref) == NextAge(AgeOf(t, ref), maxBars)
    ensures AgesAtMost(r.kept, maxBars)
    ensures forall ref :: ref in r.cancels <==> Expires(t, ref, maxBars) && IsAlive(broker, ref)
  {
    if |t| == 0 then Aging([], [])
    else
      var rest := AgeAll(t[1..], maxBars, broker);
      var o := t[0];
      assert forall ref :: ref != o.ref ==> AgeOf(t, ref) == AgeOf(t[1..], ref);
      if o.age + 1 > maxBars then
        var mine: seq<int> := if IsAlive(broker, o.ref) then [o.ref] else [];
        assert forall ref :: ref in mine + rest.cancels <==> ref in mine || ref in rest.cancels;
        Aging(rest.kept, mine + rest.cancels)
      else
        var kept := [TrackedOrder(o.ref, o.age + 1)] + rest.kept;
        assert kept[1..] == rest.kept;
        assert forall ref :: ref != o.ref ==> AgeOf(kept, ref) == AgeOf(rest.kept, ref);
        Aging(kept, rest.cancels)
  }

  /** `order_refs[ref] = 0`: starts watching a new entry order at age 0
      (appended at the end) or restarts an already tracked one in place. */
  function Track(t: Registry, ref: int): (r: Registry)
    ensures AgeOf(r, ref) == Some(0)
    ensures forall other :: other != ref ==> AgeOf(r, other) == AgeOf(t, other)
    ensures AgeOf(t, ref).None? ==> r == t + [TrackedOrder(ref, 0)]
    ensures |r| == |t| || |r| == |t| + 1
  {
    if |t| == 0 then [TrackedOrder(ref, 0)]
    else if t[0].ref == ref then
      var r := [TrackedOrder(ref, 0)] + t[1..];
      assert r[1..] == t[1..];
      r
    else
      var rest := Track(t[1..], ref);
      var r := [t[0]] + rest;
      assert r[1..] == rest;
      assert AgeOf(t, ref).None? ==> r == t + [TrackedOrder(ref, 0)];
      r
  }

  /** Restarting or adding an order at age 0 keeps every age within a bound. */
  lemma {:induction false} TrackKeepsAgeBound(t: Registry, ref: int, bound: nat)
    requires AgesAtMost(t, bound)
    ensures AgesAtMost(Track(t, ref), bound)
  {
    if |t| > 0 && t[0].ref != ref {
      TrackKeepsAgeBound(t[1..], ref, bound);
      assert Track(t, ref) == [t[0]] + Track(t[1..], ref);
    }
  }

  /** The registry after one bar of aging per broker snapshot, in order. */
  function AgeRepeatedly(t: Registry, maxBars: nat, brokers: seq<seq<BrokerOrder>>): Registry
    decreases |brokers|
  {
    if |brokers| == 0 then t
    else AgeRepeatedly(AgeAll(t, maxBars, brokers[0]).kept, maxBars, brokers[1..])
  }

  /** An order that is not tracked never comes back through aging. */
  lemma {:induction false} UntrackedStaysUntracked(t: Registry, maxBars: nat, brokers: seq<seq<BrokerOrder>>, ref: int)
    requires AgeOf(t, ref).None?
    ensures AgeOf(AgeRepeatedly(t, maxBars, brokers), ref).None?
    decreases |brokers|
  {
    if |brokers| > 0 {
      UntrackedStaysUntracked(AgeAll(t, maxBars, brokers[0]).kept, maxBars, brokers[1..], ref);
    }
  }

  /** The lifetime of an entry order: tracked at age `a`, after `n` bars it
      is `a + n` bars old while that stays within `maxBars`, and it is
      dropped for good once it passes the limit. */
  lemma {:induction false} OrderLifetime(t: Registry, maxBars: nat, brokers: seq<seq<BrokerOrder>>, ref: int, a: nat)
    requires AgeOf(t, ref) == Some(a) && a <= maxBars
    ensures a + |brokers| <= maxBars ==> AgeOf(AgeRepeatedly(t, maxBars, brokers), ref) == Some(a + |brokers|)
    ensures a + |brokers| > maxBars ==> AgeOf(AgeRepeatedly(t, maxBars, brokers), ref).None?
    decreases |brokers|
  {
    if |brokers| > 0 {
      var k := AgeAll(t, maxBars, brokers[0]).kept;
      if a + 1 <= maxBars {
        OrderLifetime(k, maxBars, brokers[1..], ref, a + 1);
      } else {
        UntrackedStaysUntracked(k, maxBars, brokers[1..], ref);
      }
    }
  }
}

=== FILE: properties.dfy ===
/** Properties of the strategy over whole runs: the bias can never be set, so
    nothing past the guard ever runs; the breakeven move happens at most once
    per entry fill; a bracket needs three bars of setup; the recorded risk of a
    filled bracket is within the risk budget; the daily loss cap example. */
module Properties {
  import opened Basics
  import opened Market
  import opened HigherTimeframe
  import opened Orders
  import opened Sizing
  import opened Setups
  import opened Strategy

  /** Every bar in the event stream is well formed with positive prices. */
  predicate PositiveBars(es: seq<Event>)
  {
    forall i :: 0 <= i < |es| && es[i].NewBar? ==> WellFormed(es[i].input.bar) && es[i].input.bar.low > 0.0
  }

  predicate AllBars(es: seq<Event>)
  {
    forall i :: 0 <= i < |es| ==> es[i].NewBar?
  }

  predicate NoFills(es: seq<Event>)
  {
    forall i :: 0 <= i < |es| ==> !IsFillEvent(es[i])
  }

  lemma TailKeeps(es: seq<Event>)
    requires |es| > 0
    ensures PositiveBars(es) ==> PositiveBars(es[1..])
    ensures AllBars(es) ==> AllBars(es[1..])
    ensures NoFills(es) ==> NoFills(es[1..])
  {
    assert forall i :: 0 <= i < |es| - 1 ==> es[1..][i] == es[i + 1];
  }

  /** A replay succeeds exactly when its first event and the replay of the
      rest succeed, and then it is the first event's batch followed by the
      rest's batches. */
  lemma ReplayStep(p: Params, s: State, es: seq<Event>)
    requires ValidParams(p) && |es| > 0
    ensures Replay(p, s, es).Success? <==>
              Apply(p, s, es[0]).Success? && Replay(p, Apply(p, s, es[0]).value.state, es[1..]).Success?
    ensures Replay(p, s, es).Success? ==>
              && Replay(p, s, es).value.state == Replay(p, Apply(p, s, es[0]).value.state, es[1..]).value.state
              && Replay(p, s, es).value.batches[0] == Apply(p, s, es[0]).value.intents
              && forall k :: 1 <= k < |es| ==>
                   Replay(p, s, es).value.batches[k]
                   == Replay(p, Apply(p, s, es[0]).value.state, es[1..]).value.batches[k - 1]
  {
    var o := Apply(p, s, es[0]);
    if o.Success? {
      ReplayAfter(p, s, es, o.value);
      var rest := Replay(p, o.value.state, es[1..]);
      if rest.Success? {
        BatchesShift(o.value.intents, rest.value.batches, Replay(p, s, es).value.batches);
      }
    } else {
      ReplayStops(p, s, es, o.error);
    }
  }

  /** Prepending a batch shifts every later batch up by one. */
  lemma BatchesShift(first: seq<Intent>, rest: seq<seq<Intent>>, all: seq<seq<Intent>>)
    requires all == [first] + rest
    ensures |all| == |rest| + 1 && all[0] == first
    ensures forall k :: 1 <= k < |all| ==> all[k] == rest[k - 1]
  {
  }

  /** The replay of `es` once its first event is known to raise `f`. */
  lemma ReplayStops(p: Params, s: State, es: seq<Event>, f: Fault)
    requires ValidParams(p) && |es| > 0 && Apply(p, s, es[0]) == Failure(f)
    ensures Replay(p, s, es) == Failure(f)
  {
  }

  /** The replay of `es` once its first event is known to give `o`. */
  lemma ReplayAfter(p: Params, s: State, es: seq<Event>, o: StepOut)
    requires ValidParams(p) && |es| > 0 && Apply(p, s, es[0]) == Success(o)
    ensures Replay(p, s, es).Success? <==> Replay(p, o.state, es[1..]).Success?
    ensures Replay(p, s, es).Success? ==>
              && Replay(p, s, es).value.state == Replay(p, o.state, es[1..]).value.state
              && Replay(p, s, es).value.batches == [o.intents] + Replay(p, o.state, es[1..]).value.batches
  {
  }

  /** With no bias the guard stops a bar right after the prelude, and a
      well-formed bar cannot give a bias. */
  lemma UnbiasedStep(p: Params, s: State, inp: BarInput)
    requires ValidParams(p) && p.bosFilter >= 0.0
    requires s.htf.bias == NoBias && s.htf.low >= 0.0
    requires WellFormed(inp.bar) && inp.bar.low > 0.0
    ensures Step(p, s, inp).Success?
    ensures Step(p, s, inp).value == Prelude(p, s, inp)
    ensures Step(p, s, inp).value.state.htf.bias == NoBias
    ensures Step(p, s, inp).value.state.htf.low >= 0.0
  {
    NoBreakOnWellFormedBar(s.htf, inp.bar, inp.ema, p);
    assert Blocked(p, Prelude(p, s, inp).state, inp.equity);
  }

  /** Starting without a bias and fed well-formed bars with positive prices
      (and any notifications), the bias stays unset, the setup never moves,
      and the only thing ever asked of the broker is cancelling aged-out
      entry orders. */
  lemma {:induction false} BiasStaysUnset(p: Params, s: State, es: seq<Event>)
    requires ValidParams(p) && p.bosFilter >= 0.0
    requires s.htf.bias == NoBias && s.htf.low >= 0.0
    requires PositiveBars(es)
    ensures AllBars(es) ==> Replay(p, s, es).Success?
    ensures Replay(p, s, es).Success? ==>
              && Replay(p, s, es).value.state.htf.bias == NoBias
              && Replay(p, s, es).value.state.pending == s.pending
              && forall k, j :: 0 <= k < |es| && 0 <= j < |Replay(p, s, es).value.batches[k]| ==>
                   Replay(p, s, es).value.batches[k][j].Cancel?
    decreases |es|
  {
    if |es| > 0 {
      TailKeeps(es);
      ReplayStep(p, s, es);
      var e := es[0];
      if e.NewBar? {
        UnbiasedStep(p, s, e.input);
      }
      var o := Apply(p, s, e);
      if o.Success? {
        BiasStaysUnset(p, o.value.state, es[1..]);
      }
    }
  }

  /** The consequence for a fresh strategy: whatever bars arrive, no order is
      ever placed, cancelled or moved, and the setup stays empty. */
  lemma {:induction false} InertRun(p: Params, s: State, es: seq<Event>)
    requires ValidParams(p) && p.bosFilter >= 0.0
    requires s.htf.bias == NoBias && s.htf.low >= 0.0 && s.orders == []
    requires AllBars(es) && PositiveBars(es)
    ensures Replay(p, s, es).Success?
    ensures Replay(p, s, es).value.state.pending == s.pending
    ensures Replay(p, s, es).value.state.orders == []
    ensures forall k :: 0 <= k < |es| ==> Replay(p, s, es).value.batches[k] == []
    decreases |es|
  {
    if |es| > 0 {
      TailKeeps(es);
      ReplayStep(p, s, es);
      var inp := es[0].input;
      UnbiasedStep(p, s, inp);
      assert AgeAll(s.orders, p.maxOrderBars, inp.broker) == Aging([], []);
      var o := Step(p, s, inp).value;
      assert o.intents == [] && o.state.orders == [];
      InertRun(p, o.state, es[1..]);
    }
  }

  /** With the default parameters, the strategy as constructed never trades. */
  lemma NeverTradesFromInit(es: seq<Event>)
    requires AllBars(es) && PositiveBars(es)
    ensures Replay(Defaults, Init, es).Success?
    ensures Replay(Defaults, Init, es).value.state.pending == NoSetup
    ensures forall k :: 0 <= k < |es| ==> Replay(Defaults, Init, es).value.batches[k] == []
  {
    DefaultsAreValid();
    InertRun(Defaults, Init, es);
  }

  /** Once the stop has been moved, no further move happens until the next
      entry fill, and the flag stays set. */
  lemma {:induction false} BreakevenLatched(p: Params, s: State, es: seq<Event>)
    requires ValidParams(p) && s.position.breakEven
    requires NoFills(es)
    ensures Replay(p, s, es).Success? ==>
              && Replay(p, s, es).value.state.position.breakEven
              && forall k :: 0 <= k < |es| ==> !HasResubmit(Replay(p, s, es).value.batches[k])
    decreases |es|
  {
    if |es| > 0 && Replay(p, s, es).Success? {
      TailKeeps(es);
      ReplayStep(p, s, es);
      assert !IsFillEvent(es[0]);
      BreakevenLatched(p, Apply(p, s, es[0]).value.state, es[1..]);
    }
  }

  /** No two batches both move the stop. */
  predicate AtMostOneMove(bs: seq<seq<Intent>>)
  {
    forall i, j :: 0 <= i < j < |bs| ==> !(HasResubmit(bs[i]) && HasResubmit(bs[j]))
  }

  /** Between entry fills at most one event moves the stop to breakeven. */
  lemma {:induction false} BreakevenAtMostOncePerFill(p: Params, s: State, es: seq<Event>)
    requires ValidParams(p)
    requires NoFills(es)
    ensures Replay(p, s, es).Success? ==> AtMostOneMove(Replay(p, s, es).value.batches)
    decreases |es|
  {
    if |es| > 0 && Replay(p, s, es).Success? {
      TailKeeps(es);
      ReplayStep(p, s, es);
      var o := Apply(p, s, es[0]).value;
      BreakevenAtMostOncePerFill(p, o.state, es[1..]);
      if HasResubmit(o.intents) {
        BreakevenLatched(p, o.state, es[1..]);
      }
      var bs := Replay(p, s, es).value.batches;
      var rb := Replay(p, o.state, es[1..]).value.batches;
      forall i, j | 0 <= i < j < |bs|
        ensures !(HasResubmit(bs[i]) && HasResubmit(bs[j]))
      {
        assert bs[j] == rb[j - 1];
        if i > 0 {
          assert bs[i] == rb[i - 1];
        }
      }
    }
  }

  predicate HasBracket(xs: seq<Intent>)
  {
    exists i :: 0 <= i < |xs| && xs[i].Bracket?
  }

  /** From an empty setup, the first two events can place no bracket: one bar
      records the sweep, the next its displacement, and only a third prices
      the entry. */
  lemma BracketNeedsThreeBars(p: Params, s: State, e1: Event, e2: Event)
    requires ValidParams(p) && s.pending.NoSetup?
    ensures Replay(p, s, [e1, e2]).Success? ==>
              !HasBracket(Replay(p, s, [e1, e2]).value.batches[0])
              && !HasBracket(Replay(p, s, [e1, e2]).value.batches[1])
  {
    var es := [e1, e2];
    if Replay(p, s, es).Success? {
      ReplayStep(p, s, es);
      var s1 := Apply(p, s, e1).value.state;
      assert es[1..] == [e2];
      ReplayStep(p, s1, [e2]);
      assert !s1.pending.Displaced?;
    }
  }

  /** When a placed bracket's entry fills at its limit price for its full
      size, and its stop order carries the bracket's stop price, the recorded
      risk is the bracket's loss at the stop, which is within the risk
      budget. */
  lemma FilledBracketRiskWithinBudget(
    p: Params, inp: BarInput, s: State, b: Intent, n: OrderNote, broker: seq<BrokerOrder>)
    requires ValidParams(p) && b.Bracket? && SoundBracket(p, inp, b)
    requires IsEntryFill(n) && n.execPrice == b.entry && n.execSize == b.size
    requires Find(broker, n.ref + 1).Some? && Find(broker, n.ref + 1).value.createdPrice == b.stop
    ensures NotifyOrder(s, n, broker).Success?
    ensures NotifyOrder(s, n, broker).value.position.risk == b.size * (Abs(b.entry - b.stop) * ContractMult)
    ensures NotifyOrder(s, n, broker).value.position.risk <= inp.equity * p.riskPerTrade
    ensures !NotifyOrder(s, n, broker).value.position.breakEven
  {
    var d := Abs(b.entry - b.stop);
    assert d * ContractMult * b.size == b.size * (d * ContractMult);
  }

  /** A losing position is "due" as well: the move fires on a 1R loss just as
      on a 1R gain, cancelling the live stop and resubmitting it at entry. */
  lemma LossAlsoTriggersBreakeven()
    ensures BreakevenMove(Position(1.0, 100.0, -50.0, 50.0, false), [BrokerOrder(7, true, true, 95.0)])
            == Managed(Position(1.0, 100.0, -50.0, 50.0, true), [Cancel(7), StopOrder(Sell, 100.0, 1.0)])
  {
    var broker := [BrokerOrder(7, true, true, 95.0)];
    assert broker[1..] == [];
    assert LiveStops(broker) == [7];
    assert [7][1..] == [];
  }

  /** The daily cap example: at the default 1 % cap and 100 000 equity, a
      biased strategy is blocked exactly when the day's P/L is -1 000 or worse. */
  lemma DailyCapExample(s: State)
    requires s.htf.bias != NoBias
    ensures Blocked(Defaults, s, 100000.0) <==> s.dailyLoss <= -1000.0
  {
  }

  /** While the daily cap is hit, even an open position that is due for
      its breakeven move is left alone for that bar. */
  lemma CapSuspendsBreakeven(p: Params, s: State, inp: BarInput)
    requires ValidParams(p)
    requires Prelude(p, s, inp).state.dailyLoss <= -p.dailyLossCap * inp.equity
    ensures Step(p, s, inp).Success?
    ensures !HasResubmit(Step(p, s, inp).value.intents)
    ensures Step(p, s, inp).value.state.position == s.position
  {
    var pre := Prelude(p, s, inp);
    assert Blocked(p, pre.state, inp.equity);
    assert Step(p, s, inp) == Success(pre);
    assert OnlyCancels(pre.intents);
  }

  /** The P/L of the closed trades reported in `es`. */
  function ClosedPnl(es: seq<Event>): real
  {
    if |es| == 0 then 0.0
    else (if es[0].TradeUpdate? && es[0].closed then es[0].pnl else 0.0) + ClosedPnl(es[1..])
  }

  /** Every bar in `es` falls on trading day `day`. */
  predicate SameDay(es: seq<Event>, day: int)
  {
    forall i :: 0 <= i < |es| && es[i].NewBar? ==> es[i].input.bar.day == day
  }

  /** Within one trading day the loss counter is the running total of the
      closed trades' P/L: bars of the same day leave it alone, and order and
      position notifications do not touch it. */
  lemma {:induction false} DailyLossIsClosedPnl(p: Params, s: State, es: seq<Event>, day: int)
    requires ValidParams(p) && s.lastTradeDay == Some(day)
    requires SameDay(es, day)
    ensures Replay(p, s, es).Success? ==>
              && Replay(p, s, es).value.state.dailyLoss == s.dailyLoss + ClosedPnl(es)
              && Replay(p, s, es).value.state.lastTradeDay == Some(day)
    decreases |es|
  {
    if |es| > 0 && Replay(p, s, es).Success? {
      ReplayStep(p, s, es);
      var o := Apply(p, s, es[0]).value;
      assert o.state.lastTradeDay == Some(day);
      assert forall i :: 0 <= i < |es| - 1 ==> es[1..][i] == es[i + 1];
      DailyLossIsClosedPnl(p, o.state, es[1..], day);
    }
  }

  /** The other direction of bracket placement: a flat, unblocked strategy
      holding a displaced setup, on a bar inside the trading window, places
      exactly the planned bracket at the risk size whenever that size is
      positive, clears the setup and starts watching the entry order. */
  lemma DisplacedSetupPlacesPlannedBracket(p: Params, s: State, inp: BarInput)
    requires ValidParams(p) && s.pending.Displaced? && s.position.size == 0.0
    requires !Blocked(p, Prelude(p, s, inp).state, inp.equity)
    requires InWindow(inp.bar.time, p.tradeStart, p.tradeEnd)
    ensures var plan := PlanEntry(s.pending, p, InWindow(inp.bar.time, p.nySweepStart, p.nySweepEnd));
            var size := RiskSize(inp.equity, inp.cash, p, plan.entry, plan.stop);
            size.Success? && size.value > 0.0 ==>
              && Step(p, s, inp).Success?
              && Bracket(plan.entry, plan.stop, plan.target, size.value) in Step(p, s, inp).value.intents
              && Step(p, s, inp).value.state.pending == NoSetup
              && AgeOf(Step(p, s, inp).value.state.orders, inp.entryRef) == Some(0)
  {
    var pre := Prelude(p, s, inp);
    var m := Manage(p, pre.state, inp);
    assert m == EntryStage(p, pre.state, inp);
    var plan := PlanEntry(s.pending, p, InWindow(inp.bar.time, p.nySweepStart, p.nySweepEnd));
    var size := RiskSize(inp.equity, inp.cash, p, plan.entry, plan.stop);
    if size.Success? && size.value > 0.0 {
      var b := Bracket(plan.entry, plan.stop, plan.target, size.value);
      assert m.value.intents == [b];
      var out := pre.intents + m.value.intents;
      assert out[|pre.intents|] == b;
    }
  }

  /** On an unblocked bar, an open position that is due has each live stop
      cancelled and replaced by a stop at the entry price, and the flag set. */
  lemma StepMovesStop(p: Params, s: State, inp: BarInput)
    requires ValidParams(p) && s.position.size != 0.0
    requires !Blocked(p, Prelude(p, s, inp).state, inp.equity)
    requires Due(s.position) && |LiveStops(inp.broker)| > 0
    ensures Step(p, s, inp).Success?
    ensures Step(p, s, inp).value.state.position.breakEven
    ensures forall ref :: ref in LiveStops(inp.broker) ==> Cancel(ref) in Step(p, s, inp).value.intents
    ensures StopOrder(ExitSide(s.position), s.position.price, Abs(s.position.size)) in Step(p, s, inp).value.intents
  {
    var pre := Prelude(p, s, inp);
    var stops := LiveStops(inp.broker);
    var mv := BreakevenMove(s.position, inp.broker);
    assert pre.state.position == s.position;
    var m := Manage(p, pre.state, inp);
    assert m == Success(StepOut(pre.state.(position := mv.position), mv.intents));
    StepUnblocked(p, s, inp);
    var r := Step(p, s, inp);
    assert r.value.intents == pre.intents + mv.intents;
    MovedStopsAppear(pre.intents, mv.intents, stops, ExitSide(s.position), s.position.price, Abs(s.position.size));
  }

  /** Everything the breakeven move asks for survives being appended to the
      prelude's cancels. */
  lemma MovedStopsAppear(pre: seq<Intent>, mv: seq<Intent>, stops: seq<int>, side: Side, price: real, size: real)
    requires |stops| > 0 && mv == Resubmits(stops, side, price, size)
    ensures forall ref :: ref in stops ==> Cancel(ref) in pre + mv
    ensures StopOrder(side, price, size) in pre + mv
  {
    var out := pre + mv;
    forall ref | ref in stops
      ensures Cancel(ref) in out
    {
      var k :| 0 <= k < |stops| && stops[k] == ref;
      assert out[|pre| + 2 * k] == mv[2 * k];
    }
    assert out[|pre| + 1] == mv[1];
  }

  /** A bar records a sweep from an empty setup exactly when it gets past the
      guard flat, falls in both the trading and the sweep window, the bias
      (after this bar's candle update) is long and the bar sweeps the lowest
      lookback low; the recorded level is the bar's low. */
  lemma StepRecordsSweep(p: Params, s: State, inp: BarInput)
    requires ValidParams(p) && s.pending.NoSetup?
    ensures (Step(p, s, inp).Success? && Step(p, s, inp).value.state.pending.Swept?) <==>
              && !Blocked(p, Prelude(p, s, inp).state, inp.equity)
              && s.position.size == 0.0
              && InWindow(inp.bar.time, p.tradeStart, p.tradeEnd)
              && InWindow(inp.bar.time, p.nySweepStart, p.nySweepEnd)
              && |inp.lookbackLows| > 0
              && Update(s.htf, inp.bar, inp.ema, p).bias == Long
              && IsSweep(inp.bar, MinOf(inp.lookbackLows), AtrUnit(inp.atr), p.sweepPierceAtr)
    ensures Step(p, s, inp).Success? && Step(p, s, inp).value.state.pending.Swept? ==>
              Step(p, s, inp).value.state.pending == Swept(inp.bar.low)
  {
    var pre := Prelude(p, s, inp);
    if !Blocked(p, pre.state, inp.equity) && s.position.size == 0.0
       && InWindow(inp.bar.time, p.tradeStart, p.tradeEnd) {
      assert Manage(p, pre.state, inp) == Detect(p, pre.state, inp);
    }
    if !Blocked(p, pre.state, inp.equity) {
      StepUnblocked(p, s, inp);
    }
  }

  /** A recorded sweep waits: a bar whose body is not a displacement neither
      fails nor clears it, whatever the guard, the window or the clock say. */
  lemma SweepWaits(p: Params, s: State, inp: BarInput)
    requires ValidParams(p) && s.pending.Swept?
    requires !IsDisplacement(inp.bar, AtrUnit(inp.atr), p.dispBodyAtr)
    ensures Step(p, s, inp).Success?
    ensures Step(p, s, inp).value.state.pending == s.pending
  {
    if !Blocked(p, Prelude(p, s, inp).state, inp.equity) {
      StepUnblocked(p, s, inp);
    }
  }

  /** No bar of `es` is a displacement. */
  predicate NoDisplacement(p: Params, es: seq<Event>)
  {
    forall i :: 0 <= i < |es| && es[i].NewBar? ==>
      !IsDisplacement(es[i].input.bar, AtrUnit(es[i].input.atr), p.dispBodyAtr)
  }

  /** Hence a sweep never expires: through any run without a displacement bar
      the recorded sweep is still the pending setup at the end, however many
      bars pass. */
  lemma {:induction false} SweepNeverExpires(p: Params, s: State, es: seq<Event>)
    requires ValidParams(p) && s.pending.Swept? && NoDisplacement(p, es)
    ensures Replay(p, s, es).Success? ==> Replay(p, s, es).value.state.pending == s.pending
    decreases |es|
  {
    if |es| > 0 {
      ReplayStep(p, s, es);
      var o := Apply(p, s, es[0]);
      if o.Success? {
        if es[0].NewBar? {
          SweepWaits(p, s, es[0].input);
        }
        assert o.value.state.pending == s.pending;
        assert NoDisplacement(p, es[1..]) by {
          forall i | 0 <= i < |es[1..]| && es[1..][i].NewBar?
            ensures !IsDisplacement(es[1..][i].input.bar, AtrUnit(es[1..][i].input.atr), p.dispBodyAtr)
          {
            assert es[1..][i] == es[i + 1];
          }
        }
        SweepNeverExpires(p, o.value.state, es[1..]);
      }
    }
  }

  /** A bar turns a recorded sweep into a displaced setup exactly when it gets
      past the guard flat, inside the trading window, with a bullish body of
      at least the ATR ratio; the record is the one `Displace` builds. */
  lemma StepRecordsDisplacement(p: Params, s: State, inp: BarInput)
    requires ValidParams(p) && s.pending.Swept?
    ensures (Step(p, s, inp).Success? && Step(p, s, inp).value.state.pending.Displaced?) <==>
              && !Blocked(p, Prelude(p, s, inp).state, inp.equity)
              && s.position.size == 0.0
              && InWindow(inp.bar.time, p.tradeStart, p.tradeEnd)
              && IsDisplacement(inp.bar, AtrUnit(inp.atr), p.dispBodyAtr)
    ensures Step(p, s, inp).Success? && Step(p, s, inp).value.state.pending.Displaced? ==>
              Step(p, s, inp).value.state.pending == Displace(s.pending.sweepLow, inp.bar, inp.prev1, inp.prev2)
  {
    var pre := Prelude(p, s, inp);
    if !Blocked(p, pre.state, inp.equity) && s.position.size == 0.0
       && InWindow(inp.bar.time, p.tradeStart, p.tradeEnd) {
      assert Manage(p, pre.state, inp) == Detect(p, pre.state, inp);
    }
    if !Blocked(p, pre.state, inp.equity) {
      StepUnblocked(p, s, inp);
    }
  }
}

=== FILE: setups.dfy ===
/** The three-stage setup (sweep, displacement, confluence entry): the stage
    record, the sweep and displacement tests, the entry zone, the confluence
    score and the entry/stop/target plan. Only the long side exists. */
module Setups {
  import opened Basics
  import opened Market

  /** `pending_setup`: nothing, a recorded sweep low, or a sweep low together
      with the displacement bar's range, the fair-value-gap edges and the
      order-block bar's range. */
  datatype Pending =
    | NoSetup
    | Swept(sweepLow: real)
    | Displaced(sweepLow: real, dispHigh: real, dispLow: real,
                fvgHigh: real, fvgLow: real, obHigh: real, obLow: real)

  /** `self.atr15[0] or 1`: a missing or zero ATR counts as 1. */
  function AtrUnit(atr: Option<real>): (u: real)
    ensures u != 0.0
    ensures atr.Some? && atr.value != 0.0 ==> u == atr.value
    ensures atr.None? || atr.value == 0.0 ==> u == 1.0
  {
    if atr.None? || atr.value == 0.0 then 1.0 else atr.value
  }

  /** Sell-side sweep: the bar pierces the recent low by at least
      `pierce * unit` and closes back above it. */
  predicate IsSweep(bar: Bar, recentLow: real, unit: real, pierce: real)
  {
    bar.low < recentLow && recentLow - bar.low >= pierce * unit && bar.close > recentLow
  }

  /** Bullish displacement: a rising body of at least `ratio * unit`. */
  predicate IsDisplacement(bar: Bar, unit: real, ratio: real)
  {
    Abs(bar.close - bar.open) >= ratio * unit && bar.close > bar.open
  }

  /** With recent low 100, ATR 2, pierce ratio 0.1 make
      a threshold of 0.2; a low of 99.7 closing at 100.3 sweeps, a low of
      99.9 does not. */
  lemma SweepExample(open: real, high: real, day: int, time: nat)
    ensures IsSweep(Bar(open, high, 99.7, 100.3, day, time), 100.0, AtrUnit(Some(2.0)), 0.1)
    ensures !IsSweep(Bar(open, high, 99.9, 100.3, day, time), 100.0, AtrUnit(Some(2.0)), 0.1)
  {
  }

  /** The record kept when displacement is confirmed: the impulse bar's
      range, a gap from the impulse bar's low down to the high two bars back,
      and the previous bar as order block whatever its colour. */
  function Displace(sweepLow: real, bar: Bar, prev1: Bar, prev2: Bar): (r: Pending)
    ensures r.Displaced? && r.sweepLow == sweepLow
    ensures r.dispHigh == bar.high && r.dispLow == bar.low
    ensures r.fvgHigh == bar.low && r.fvgLow == prev2.high
    ensures r.obHigh == prev1.high && r.obLow == prev1.low
  {
    Displaced(sweepLow, bar.high, bar.low, bar.low, prev2.high, prev1.high, prev1.low)
  }

  /** The order block is the previous bar even when that bar rose, which is
      not the "last down-candle" the strategy describes. */
  lemma OrderBlockIgnoresColour(sweepLow: real, bar: Bar, prev1: Bar, prev2: Bar)
    requires prev1.close > prev1.open
    ensures Displace(sweepLow, bar, prev1, prev2).obHigh == prev1.high
    ensures Displace(sweepLow, bar, prev1, prev2).obLow == prev1.low
  {
  }

  /** Lower edge of the optimal-trade-entry band: 62 % of the swing up from the sweep low. */
  function OteLow(s: Pending): real
    requires s.Displaced?
  {
    s.sweepLow + 0.62 * (s.dispHigh - s.sweepLow)
  }

  /** Upper edge of the optimal-trade-entry band: 79 % of the swing. */
  function OteHigh(s: Pending): real
    requires s.Displaced?
  {
    s.sweepLow + 0.79 * (s.dispHigh - s.sweepLow)
  }

  /** Midpoint of the fair-value gap. */
  function GapMid(s: Pending): real
    requires s.Displaced?
  {
    (s.fvgHigh + s.fvgLow) / 2.0
  }

  /** Midpoint of the order-block bar (its "50 %" level). */
  function BlockMid(s: Pending): real
    requires s.Displaced?
  {
    (s.obHigh + s.obLow) / 2.0
  }

  datatype Zone = Zone(low: real, high: real)

  /** The confluence zone: from the lowest to the highest of the gap
      midpoint, the order-block midpoint and the two band edges, clipped to
      the swing. Whenever the swing is upward the zone contains the whole
      band. */
  function ConfluenceZone(s: Pending): (z: Zone)
    requires s.Displaced?
    ensures z.low >= s.sweepLow && z.high <= s.dispHigh
    ensures s.sweepLow <= s.dispHigh ==>
              s.sweepLow <= z.low <= OteLow(s) <= OteHigh(s) <= z.high <= s.dispHigh
    ensures s.sweepLow <= GapMid(s) <= s.dispHigh ==> z.low <= GapMid(s) <= z.high
    ensures s.sweepLow <= BlockMid(s) <= s.dispHigh ==> z.low <= BlockMid(s) <= z.high
    ensures z.low in {s.sweepLow, GapMid(s), BlockMid(s), OteLow(s), OteHigh(s)}
    ensures z.high in {s.dispHigh, GapMid(s), BlockMid(s), OteLow(s), OteHigh(s)}
  {
    var fvgMid := GapMid(s);
    var ob50 := BlockMid(s);
    var lo := Min(Min(fvgMid, ob50), Min(OteLow(s), OteHigh(s)));
    var hi := Max(Max(fvgMid, ob50), Max(OteLow(s), OteHigh(s)));
    Zone(Max(lo, s.sweepLow), Min(hi, s.dispHigh))
  }

  /** A gap and an order block that do not overlap at all still give a
      non-empty zone, spanning from the block's midpoint to the top of the
      band. */
  lemma ZoneIsHullNotOverlap()
    ensures var s := Displaced(100.0, 120.0, 110.0, 110.0, 109.0, 102.0, 101.0);
            && s.obHigh < s.fvgLow
            && ConfluenceZone(s) == Zone(101.5, 115.8)
  {
  }

  /** The zone's midpoint, the entry before rounding. */
  function ZoneMid(s: Pending): (m: real)
    requires s.Displaced?
    ensures s.sweepLow <= s.dispHigh ==> s.sweepLow <= m <= s.dispHigh
  {
    var z := ConfluenceZone(s);
    (z.low + z.high) / 2.0
  }

  /** The score needed to place an order. */
  const MinScore: nat := 5

  /** The confluence score: one point for being in the sweep window, and one
      each for bias, sweep, gap, order block and band, which are granted
      without a test. It is 5 or 6, so it always reaches `MinScore`. */
  function Score(inSweepWindow: bool): (r: nat)
    ensures MinScore <= r <= 6
    ensures r == 6 <==> inSweepWindow
  {
    var window := if inSweepWindow then 1 else 0;
    window + 1 + 1 + 1 + 1 + 1
  }

  /** The price `rr` risk units above the entry, where the risk is the
      distance from the entry down to the stop. */
  function RewardPrice(entry: real, stop: real, rr: real): real
  {
    entry + rr * (entry - stop)
  }

  /** The order a confirmed setup would place. */
  datatype Plan = Plan(entry: real, stop: real, target: real, score: nat)

  /** Entry at the zone midpoint rounded to 0.25 points; stop a buffer below
      the sweep low, rounded to the tick; target `rrTarget` risk units above
      the entry, rounded to cents. */
  function PlanEntry(s: Pending, p: Params, inSweepWindow: bool): (r: Plan)
    requires s.Displaced? && p.tickSize > 0.0
    ensures IsMultipleOf(r.entry, 0.25) && Abs(r.entry - ZoneMid(s)) <= 0.125
    ensures IsMultipleOf(r.stop, p.tickSize)
    ensures Abs(r.stop - (s.sweepLow - p.stopBuffer)) <= p.tickSize / 2.0
    ensures IsMultipleOf(r.target, 0.01)
    ensures Abs(r.target - RewardPrice(r.entry, r.stop, p.rrTarget)) <= 0.005
    ensures r.score == Score(inSweepWindow)
  {
    var entry := Quantize(ZoneMid(s), 0.25);
    var stop := Quantize(s.sweepLow - p.stopBuffer, p.tickSize);
    var aim := RewardPrice(entry, stop, p.rrTarget);
    var target := Quantize(aim, 0.01);
    assert Abs(target - aim) <= 0.005;
    Plan(entry, stop, target, Score(inSweepWindow))
  }
}

=== FILE: sizing.dfy ===
/** Position sizing: the margin cap and the risk-based size. */
module Sizing {
  import opened Basics
  import opened Market

  /** `_max_affordable`: the lot count whose notional value equals cash times leverage. */
  function MaxAffordable(cash: real, leverage: real, price: real): (r: real)
    requires price != 0.0
    ensures r * (price * ContractMult) == cash * leverage
  {
    (cash * leverage) / (price * ContractMult)
  }

  /** `x <= a / b` with `b > 0` means `x * b <= a`. */
  lemma ClearDivisor(x: real, a: real, b: real)
    requires b > 0.0
    requires x <= a / b
    ensures x * b <= a
  {
    assert x * b <= (a / b) * b;
  }

  /** The margin cap in multiplied-out form, for a positive denominator. */
  lemma MarginCap(x: real, a: real, b: real)
    requires b != 0.0
    requires x <= a / b
    ensures b > 0.0 ==> x * b <= a
  {
    if b > 0.0 {
      ClearDivisor(x, a, b);
    }
  }

  /** `_risk_size`: lots such that hitting the stop loses the risk budget,
      capped by what the margin affords. Zero when entry equals stop; the
      division by a zero entry raises. The size is not truncated to any
      increment. */
  function RiskSize(equity: real, cash: real, p: Params, entry: real, stop: real): (r: Result<real, Fault>)
    ensures entry == stop ==> r == Success(0.0)
    ensures r.Failure? <==> entry != stop && entry == 0.0
    ensures r.Failure? ==> r.error == DivisionByZero
    ensures r.Success? && entry != stop ==>
              r.value * (Abs(entry - stop) * ContractMult) <= equity * p.riskPerTrade
    ensures r.Success? && entry != stop && entry > 0.0 ==>
              r.value * (entry * ContractMult) <= cash * p.leverage
    ensures r.Success? && entry != stop ==>
              r.value * (Abs(entry - stop) * ContractMult) == equity * p.riskPerTrade
              || r.value * (entry * ContractMult) == cash * p.leverage
    ensures r.Success? && entry != stop && entry != 0.0 ==>
              && r.value <= (equity * p.riskPerTrade) / (Abs(entry - stop) * ContractMult)
              && r.value <= MaxAffordable(cash, p.leverage, entry)
  {
    var riskCash := equity * p.riskPerTrade;
    var riskPt := Abs(entry - stop) * ContractMult;
    if riskPt <= 0.0 then Success(0.0)
    else if entry == 0.0 then Failure(DivisionByZero)
    else
      var byRisk := riskCash / riskPt;
      var byMargin := MaxAffordable(cash, p.leverage, entry);
      var size := Min(byRisk, byMargin);
      ClearDivisor(size, riskCash, riskPt);
      assert byRisk * riskPt == riskCash;
      assert byMargin == (cash * p.leverage) / (entry * ContractMult);
      MarginCap(size, cash * p.leverage, entry * ContractMult);
      Success(size)
  }

  /** With equity 100 000, 0.5 % risked over a 10-point stop is
      0.5 lots, but 10 000 cash at 15x leverage affords only 0.075 lots at
      20 000, and 0.075 is returned as is, not cut to a 0.01-lot increment. */
  lemma RiskSizeExample()
    ensures (100000.0 * Defaults.riskPerTrade) / (Abs(20000.0 - 19990.0) * ContractMult) == 0.5
    ensures MaxAffordable(10000.0, Defaults.leverage, 20000.0) == 0.075
    ensures RiskSize(100000.0, 10000.0, Defaults, 20000.0, 19990.0) == Success(0.075)
    ensures !IsMultipleOf(0.075, 0.01)
  {
    assert 0.075 / 0.01 == 7.5;
    var f := (7.5).Floor;
    assert f as real <= 7.5 < f as real + 1.0;
    assert f == 7;
  }
}

=== FILE: strategy.dfy ===
/** The per-bar decision engine of `SweepFvgObNAS100` as a pure state machine:
    `Step` is `next`, `NotifyOrder` and `NotifyTrade` are the two broker
    callbacks, and `Replay` runs a stream of bars and notifications. Broker
    actions come out as intents instead of calls. */
module Strategy {
  import opened Basics
  import opened Market
  import opened Sizing
  import opened HigherTimeframe
  import opened Orders
  import opened Setups

  /** The local mirror of the broker position. `size`, `price` and `pnl` are
      the broker's; `risk` (money lost at the initial stop) and `breakEven`
      are written by the strategy. */
  datatype Position = Position(size: real, price: real, pnl: real, risk: real, breakEven: bool)

  const Flat: Position := Position(0.0, 0.0, 0.0, 0.0, false)

  /** Everything the strategy object keeps between bars. */
  datatype State = State(
    htf: Htf,
    orders: Registry,
    dailyLoss: real,
    lastTradeDay: Option<int>,
    pending: Pending,
    position: Position)

  /** The state after `__init__`. */
  const Init: State := State(Fresh, [], 0.0, None, NoSetup, Flat)

  datatype Side = Buy | Sell

  /** What the strategy asks of the broker: cancel an order, place a
      bracket (limit entry with stop and target), or submit a stop order. */
  datatype Intent =
    | Cancel(ref: int)
    | Bracket(entry: real, stop: real, target: real, size: real)
    | StopOrder(side: Side, price: real, size: real)

  /** Everything `next` reads besides the state: the current bar and the two
      before it, the lookback lows (not including the current bar), the
      indicator values, equity and cash, the broker's orders, and the
      reference the broker will give the next entry order. */
  datatype BarInput = BarInput(
    bar: Bar,
    prev1: Bar,
    prev2: Bar,
    lookbackLows: seq<real>,
    ema: Option<real>,
    atr: Option<real>,
    equity: real,
    cash: real,
    broker: seq<BrokerOrder>,
    entryRef: int)

  datatype StepOut = StepOut(state: State, intents: seq<Intent>)

  function Cancels(refs: seq<int>): (r: seq<Intent>)
    ensures |r| == |refs|
    ensures forall i :: 0 <= i < |refs| ==> r[i] == Cancel(refs[i])
  {
    seq(|refs|, i requires 0 <= i < |refs| => Cancel(refs[i]))
  }

  predicate OnlyCancels(xs: seq<Intent>)
  {
    forall i :: 0 <= i < |xs| ==> xs[i].Cancel?
  }

  predicate HasResubmit(xs: seq<Intent>)
  {
    exists i :: 0 <= i < |xs| && xs[i].StopOrder?
  }

  /** The daily reset: the loss counter restarts at the first bar whose date
      differs from the stored trading day. */
  function NewDay(s: State, day: int): (r: State)
    ensures r.lastTradeDay == Some(day)
    ensures s.lastTradeDay != Some(day) ==> r.dailyLoss == 0.0
    ensures s.lastTradeDay == Some(day) ==> r.dailyLoss == s.dailyLoss
    ensures r.(dailyLoss := s.dailyLoss, lastTradeDay := s.lastTradeDay) == s
  {
    if s.lastTradeDay != Some(day) then s.(dailyLoss := 0.0, lastTradeDay := Some(day)) else s
  }

  /** The part of `next` that runs on every bar: daily reset, candle and
      bias update, and aging of entry orders. */
  function Prelude(p: Params, s: State, inp: BarInput): (r: StepOut)
    requires ValidParams(p)
    ensures r.state.pending == s.pending && r.state.position == s.position
    ensures r.state.lastTradeDay == Some(inp.bar.day)
    ensures r.state.dailyLoss == NewDay(s, inp.bar.day).dailyLoss
    ensures r.state.htf == Update(s.htf, inp.bar, inp.ema, p)
    ensures forall ref :: AgeOf(r.state.orders, ref) == NextAge(AgeOf(s.orders, ref), p.maxOrderBars)
    ensures AgesAtMost(r.state.orders, p.maxOrderBars)
    ensures OnlyCancels(r.intents)
    ensures forall ref :: Cancel(ref) in r.intents <==>
              Expires(s.orders, ref, p.maxOrderBars) && IsAlive(inp.broker, ref)
  {
    var d := NewDay(s, inp.bar.day);
    var aged := AgeAll(s.orders, p.maxOrderBars, inp.broker);
    var out := Cancels(aged.cancels);
    assert forall ref :: Cancel(ref) in out <==> ref in aged.cancels by {
      forall ref
        ensures Cancel(ref) in out <==> ref in aged.cancels
      {
        if ref in aged.cancels {
          var i :| 0 <= i < |aged.cancels| && aged.cancels[i] == ref;
          assert out[i] == Cancel(ref);
        }
      }
    }
    StepOut(d.(htf := Update(s.htf, inp.bar, inp.ema, p), orders := aged.kept), out)
  }

  /** The guard of `next`: the daily loss cap is reached or there is no bias. */
  predicate Blocked(p: Params, s: State, equity: real)
  {
    s.dailyLoss <= -p.dailyLossCap * equity || s.htf.bias == NoBias
  }

  /** References of the broker's live stop orders, in the broker's order. */
  function LiveStops(broker: seq<BrokerOrder>): (r: seq<int>)
    ensures |r| <= |broker|
    ensures |r| == 0 <==> forall i :: 0 <= i < |broker| ==> !(broker[i].isStop && broker[i].alive)
    ensures forall k :: 0 <= k < |r| ==>
              exists i :: 0 <= i < |broker| && broker[i].ref == r[k] && broker[i].isStop && broker[i].alive
    ensures forall i :: 0 <= i < |broker| && broker[i].isStop && broker[i].alive ==> broker[i].ref in r
    ensures (forall i, j :: 0 <= i < j < |broker| ==> broker[i].ref != broker[j].ref) ==>
              forall k, l :: 0 <= k < l < |r| ==> r[k] != r[l]
  {
    if |broker| == 0 then []
    else
      var rest := LiveStops(broker[1..]);
      assert forall i :: 1 <= i < |broker| ==> broker[i] == broker[1..][i - 1];
      if broker[0].isStop && broker[0].alive then [broker[0].ref] + rest else rest
  }

  /** For each stop: cancel it, then submit a replacement. */
  function Resubmits(stops: seq<int>, side: Side, price: real, size: real): (r: seq<Intent>)
    ensures |r| == 2 * |stops|
    ensures forall k :: 0 <= k < |stops| ==> r[2 * k] == Cancel(stops[k])
    ensures forall j :: 0 <= j < |r| && j % 2 == 1 ==> r[j] == StopOrder(side, price, size)
    ensures |stops| > 0 <==> HasResubmit(r)
    ensures forall j :: 0 <= j < |r| ==> r[j].Cancel? || r[j].StopOrder?
  {
    if |stops| == 0 then []
    else
      var head := [Cancel(stops[0]), StopOrder(side, price, size)];
      var rest := Resubmits(stops[1..], side, price, size);
      var r := head + rest;
      assert forall k :: 1 <= k < |stops| ==> r[2 * k] == rest[2 * (k - 1)];
      assert forall j :: 2 <= j < |r| ==> r[j] == rest[j - 2];
      assert r[1].StopOrder?;
      r
  }

  /** The breakeven move cancels only the stops it was given. */
  lemma ResubmitCancelsOnlyStops(stops: seq<int>, side: Side, price: real, size: real)
    ensures forall ref :: Cancel(ref) in Resubmits(stops, side, price, size) ==> ref in stops
  {
    var r := Resubmits(stops, side, price, size);
    forall ref | Cancel(ref) in r
      ensures ref in stops
    {
      var j :| 0 <= j < |r| && r[j] == Cancel(ref);
      assert j % 2 == 0;
      assert r[2 * (j / 2)] == Cancel(stops[j / 2]);
    }
  }

  /** A position whose stop has not been moved and whose P/L, in either
      direction, has reached the recorded risk. */
  predicate Due(pos: Position)
  {
    !pos.breakEven && Abs(pos.pnl) >= pos.risk
  }

  /** The side that closes the position. */
  function ExitSide(pos: Position): Side
  {
    if pos.size > 0.0 then Sell else Buy
  }

  datatype Managed = Managed(position: Position, intents: seq<Intent>)

  /** The breakeven move: when due, every live stop is cancelled and replaced
      by a stop at the entry price for the whole position, and the flag is
      set when there was at least one such stop. */
  function BreakevenMove(pos: Position, broker: seq<BrokerOrder>): (r: Managed)
    ensures r.position.(breakEven := pos.breakEven) == pos
    ensures !Due(pos) ==> r.position == pos && r.intents == []
    ensures Due(pos) ==> r.position.breakEven == (|LiveStops(broker)| > 0)
    ensures Due(pos) ==> r.intents == Resubmits(LiveStops(broker), ExitSide(pos), pos.price, Abs(pos.size))
    ensures HasResubmit(r.intents) <==> Due(pos) && r.position.breakEven
  {
    if !Due(pos) then Managed(pos, [])
    else
      var stops := LiveStops(broker);
      Managed(pos.(breakEven := |stops| > 0), Resubmits(stops, ExitSide(pos), pos.price, Abs(pos.size)))
  }

  /** The breakeven move only cancels and resubmits, and what it cancels is
      a live stop replaced in the same batch. */
  lemma BreakevenMoveCancelsStops(pos: Position, broker: seq<BrokerOrder>)
    ensures forall i :: 0 <= i < |BreakevenMove(pos, broker).intents| ==>
              BreakevenMove(pos, broker).intents[i].Cancel? || BreakevenMove(pos, broker).intents[i].StopOrder?
    ensures forall ref :: Cancel(ref) in BreakevenMove(pos, broker).intents ==>
              ref in LiveStops(broker) && HasResubmit(BreakevenMove(pos, broker).intents)
  {
    if Due(pos) {
      var stops := LiveStops(broker);
      ResubmitCancelsOnlyStops(stops, ExitSide(pos), pos.price, Abs(pos.size));
      assert BreakevenMove(pos, broker).intents != [] ==> |stops| > 0;
    }
  }

  /** Stage order: a bar may record a sweep when there is none, record the
      displacement of the recorded sweep, or clear a displaced setup, and
      nothing else. */
  predicate Advances(before: Pending, after: Pending)
  {
    || after == before
    || (before.NoSetup? && after.Swept?)
    || (before.Swept? && after.Displaced? && after.sweepLow == before.sweepLow)
    || (before.Displaced? && after.NoSetup?)
  }

  /** Stage one: in the sweep window, take the minimum of the lookback lows
      (raising on an empty list) and record a sweep when the bias is long. */
  function SweepStage(p: Params, s: State, inp: BarInput): (r: Result<State, Fault>)
    requires s.pending.NoSetup?
    ensures r.Failure? <==> InWindow(inp.bar.time, p.nySweepStart, p.nySweepEnd) && |inp.lookbackLows| == 0
    ensures r.Failure? ==> r.error == EmptyLookback
    ensures r.Success? ==> r.value == s || r.value == s.(pending := Swept(inp.bar.low))
    ensures (r.Success? && r.value.pending.Swept?) <==>
              && InWindow(inp.bar.time, p.nySweepStart, p.nySweepEnd)
              && |inp.lookbackLows| > 0
              && s.htf.bias == Long
              && IsSweep(inp.bar, MinOf(inp.lookbackLows), AtrUnit(inp.atr), p.sweepPierceAtr)
  {
    if !InWindow(inp.bar.time, p.nySweepStart, p.nySweepEnd) then Success(s)
    else if |inp.lookbackLows| == 0 then Failure(EmptyLookback)
    else
      var recentLow := MinOf(inp.lookbackLows);
      var sweep := IsSweep(inp.bar, recentLow, AtrUnit(inp.atr), p.sweepPierceAtr);
      if s.htf.bias == Long && sweep then Success(s.(pending := Swept(inp.bar.low)))
      else Success(s)
  }

  /** Stage two: a bullish displacement bar confirms the recorded sweep. */
  function DisplacementStage(p: Params, s: State, inp: BarInput): (r: State)
    requires s.pending.Swept?
    ensures r == s || r == s.(pending := Displace(s.pending.sweepLow, inp.bar, inp.prev1, inp.prev2))
    ensures r.pending.Displaced? <==> IsDisplacement(inp.bar, AtrUnit(inp.atr), p.dispBodyAtr)
  {
    if IsDisplacement(inp.bar, AtrUnit(inp.atr), p.dispBodyAtr) then
      s.(pending := Displace(s.pending.sweepLow, inp.bar, inp.prev1, inp.prev2))
    else s
  }

  /** What every placed bracket satisfies: positive size, loss at the stop
      within the risk budget, notional within cash times leverage, entry on
      the 0.25 grid, stop on the tick grid, target `rrTarget` risk units away
      up to cent rounding. */
  predicate SoundOrder(p: Params, inp: BarInput, entry: real, stop: real, target: real, size: real)
    requires p.tickSize > 0.0
  {
    && size > 0.0
    && size * (Abs(entry - stop) * ContractMult) <= inp.equity * p.riskPerTrade
    && (entry > 0.0 ==> size * (entry * ContractMult) <= inp.cash * p.leverage)
    && IsMultipleOf(entry, 0.25)
    && IsMultipleOf(stop, p.tickSize)
    && Abs(target - RewardPrice(entry, stop, p.rrTarget)) <= 0.005
  }

  predicate SoundBracket(p: Params, inp: BarInput, b: Intent)
    requires b.Bracket? && p.tickSize > 0.0
  {
    SoundOrder(p, inp, b.entry, b.stop, b.target, b.size)
  }

  /** The sizing and pricing facts behind a placed bracket. */
  lemma PlacedBracketIsSound(p: Params, inp: BarInput, entry: real, stop: real, target: real, size: real)
    requires ValidParams(p)
    requires IsMultipleOf(entry, 0.25) && IsMultipleOf(stop, p.tickSize)
    requires Abs(target - RewardPrice(entry, stop, p.rrTarget)) <= 0.005
    requires RiskSize(inp.equity, inp.cash, p, entry, stop) == Success(size)
    requires size > 0.0
    ensures SoundBracket(p, inp, Bracket(entry, stop, target, size))
  {
    assert entry != stop;
    var rr := Abs(target - RewardPrice(entry, stop, p.rrTarget));
    assert rr <= 0.005;
    assert SoundOrder(p, inp, entry, stop, target, size);
  }

  /** Stage three: price the displaced setup, score it, size it, and either
      drop it (non-positive size) or place the bracket and start aging its
      entry order. Either way the setup is cleared. */
  function EntryStage(p: Params, s: State, inp: BarInput): (r: Result<StepOut, Fault>)
    requires ValidParams(p) && s.pending.Displaced?
    ensures r.Failure? ==> r.error == DivisionByZero
    ensures r.Success? ==> r.value.state.pending == NoSetup
    ensures r.Success? ==> r.value.state == s.(pending := NoSetup)
                           || r.value.state == s.(pending := NoSetup, orders := Track(s.orders, inp.entryRef))
    ensures r.Success? ==> r.value.intents == [] || (|r.value.intents| == 1 && r.value.intents[0].Bracket?)
    ensures r.Success? ==> forall i :: 0 <= i < |r.value.intents| ==>
              r.value.intents[i].Bracket? && SoundBracket(p, inp, r.value.intents[i])
              && r.value.state.orders == Track(s.orders, inp.entryRef)
    ensures var plan := PlanEntry(s.pending, p, InWindow(inp.bar.time, p.nySweepStart, p.nySweepEnd));
            var size := RiskSize(inp.equity, inp.cash, p, plan.entry, plan.stop);
            && (r.Failure? <==> size.Failure?)
            && (size.Success? && size.value > 0.0 ==>
                  r == Success(StepOut(s.(pending := NoSetup, orders := Track(s.orders, inp.entryRef)),
                                       [Bracket(plan.entry, plan.stop, plan.target, size.value)])))
            && (size.Success? && size.value <= 0.0 ==> r == Success(StepOut(s.(pending := NoSetup), [])))
  {
    var plan := PlanEntry(s.pending, p, InWindow(inp.bar.time, p.nySweepStart, p.nySweepEnd));
    if plan.score < MinScore then Success(StepOut(s, []))
    else
      var size :- RiskSize(inp.equity, inp.cash, p, plan.entry, plan.stop);
      if size <= 0.0 then Success(StepOut(s.(pending := NoSetup), []))
      else
        var b := Bracket(plan.entry, plan.stop, plan.target, size);
        PlacedBracketIsSound(p, inp, plan.entry, plan.stop, plan.target, size);
        Success(StepOut(s.(pending := NoSetup, orders := Track(s.orders, inp.entryRef)), [b]))
  }

  /** The stage dispatch of `next`: exactly one stage runs. */
  function Detect(p: Params, s: State, inp: BarInput): (r: Result<StepOut, Fault>)
    requires ValidParams(p)
    ensures r.Failure? ==> r.error != MissingStopOrder
    ensures r.Success? ==> Advances(s.pending, r.value.state.pending)
    ensures r.Success? ==> r.value.state.(pending := s.pending, orders := s.orders) == s
    ensures r.Success? ==> r.value.state.orders == s.orders
                           || r.value.state.orders == Track(s.orders, inp.entryRef)
    ensures r.Success? ==> forall i :: 0 <= i < |r.value.intents| ==>
              r.value.intents[i].Bracket? && SoundBracket(p, inp, r.value.intents[i])
              && r.value.state.orders == Track(s.orders, inp.entryRef)
              && s.pending.Displaced?
    ensures s.pending.NoSetup? ==>
              && (r.Failure? <==> SweepStage(p, s, inp).Failure?)
              && (r.Success? ==> r.value == StepOut(SweepStage(p, s, inp).value, []))
    ensures s.pending.Swept? ==> r == Success(StepOut(DisplacementStage(p, s, inp), []))
    ensures s.pending.Displaced? ==> r == EntryStage(p, s, inp)
  {
    match s.pending
    case NoSetup =>
      var s' :- SweepStage(p, s, inp);
      Success(StepOut(s', []))
    case Swept(_) => Success(StepOut(DisplacementStage(p, s, inp), []))
    case Displaced(_, _, _, _, _, _, _) => EntryStage(p, s, inp)
  }

  /** Everything after the guard: breakeven management of an open position,
      else nothing outside the trading window, else one stage of the setup. */
  function Manage(p: Params, s: State, inp: BarInput): (r: Result<StepOut, Fault>)
    requires ValidParams(p)
    ensures r.Failure? ==> r.error != MissingStopOrder
    ensures r.Success? ==> Advances(s.pending, r.value.state.pending)
    ensures r.Success? ==> r.value.state.(pending := s.pending, orders := s.orders, position := s.position) == s
    ensures r.Success? ==> r.value.state.orders == s.orders
                           || r.value.state.orders == Track(s.orders, inp.entryRef)
    ensures r.Success? ==> forall i :: 0 <= i < |r.value.intents| && r.value.intents[i].Bracket? ==>
              SoundBracket(p, inp, r.value.intents[i])
              && r.value.state.orders == Track(s.orders, inp.entryRef)
              && r.value.state.pending == NoSetup
              && s.pending.Displaced?
    ensures r.Success? ==> r.value.state.position.(breakEven := s.position.breakEven) == s.position
    ensures r.Success? && r.value.state.position.breakEven != s.position.breakEven ==>
              HasResubmit(r.value.intents)
    ensures r.Success? && HasResubmit(r.value.intents) ==>
              Due(s.position) && r.value.state.position.breakEven
    ensures s.position.size != 0.0 ==>
              && r.Success?
              && r.value.state.pending == s.pending
              && r.value.state.orders == s.orders
              && forall i :: 0 <= i < |r.value.intents| ==> !r.value.intents[i].Bracket?
    ensures s.position.size == 0.0 && r.Success? ==>
              r.value.state.position == s.position && !HasResubmit(r.value.intents)
    ensures s.position.size == 0.0 && !InWindow(inp.bar.time, p.tradeStart, p.tradeEnd) ==>
              r == Success(StepOut(s, []))
    ensures r.Success? ==> forall ref :: Cancel(ref) in r.value.intents ==>
              ref in LiveStops(inp.broker) && HasResubmit(r.value.intents)
    ensures s.position.size != 0.0 ==>
              r == Success(StepOut(s.(position := BreakevenMove(s.position, inp.broker).position),
                                   BreakevenMove(s.position, inp.broker).intents))
    ensures s.position.size == 0.0 && InWindow(inp.bar.time, p.tradeStart, p.tradeEnd) ==>
              r == Detect(p, s, inp)
  {
    if s.position.size != 0.0 then
      var m := BreakevenMove(s.position, inp.broker);
      BreakevenMoveCancelsStops(s.position, inp.broker);
      Success(StepOut(s.(position := m.position), m.intents))
    else if !InWindow(inp.bar.time, p.tradeStart, p.tradeEnd) then
      Success(StepOut(s, []))
    else
      var d := Detect(p, s, inp);
      assert d.Success? ==> forall ref :: Cancel(ref) !in d.value.intents;
      d
  }

  /** Intents appended after a run of cancels. */
  lemma AppendAfterCancels(a: seq<Intent>, b: seq<Intent>)
    requires OnlyCancels(a)
    ensures HasResubmit(a + b) <==> HasResubmit(b)
    ensures forall i :: 0 <= i < |a + b| && (a + b)[i].Bracket? ==> i >= |a| && (a + b)[i] == b[i - |a|]
  {
    var c := a + b;
    assert forall i :: 0 <= i < |a| ==> c[i] == a[i];
    assert forall i :: |a| <= i < |c| ==> c[i] == b[i - |a|];
    if HasResubmit(b) {
      var j :| 0 <= j < |b| && b[j].StopOrder?;
      assert c[|a| + j] == b[j];
    }
  }

  /** `next`: the prelude, then the guard, then the rest. */
  function Step(p: Params, s: State, inp: BarInput): (r: Result<StepOut, Fault>)
    requires ValidParams(p)
    ensures r.Failure? ==> r.error != MissingStopOrder
    ensures r.Success? ==> r.value.state.lastTradeDay == Some(inp.bar.day)
    ensures r.Success? ==> r.value.state.dailyLoss == NewDay(s, inp.bar.day).dailyLoss
    ensures r.Success? ==> r.value.state.htf == Update(s.htf, inp.bar, inp.ema, p)
    ensures r.Success? ==> AgesAtMost(r.value.state.orders, p.maxOrderBars)
    ensures r.Success? ==> Advances(s.pending, r.value.state.pending)
    ensures Blocked(p, Prelude(p, s, inp).state, inp.equity) ==> r == Success(Prelude(p, s, inp))
    ensures r.Success? ==> forall i :: 0 <= i < |r.value.intents| && r.value.intents[i].Bracket? ==>
              SoundBracket(p, inp, r.value.intents[i])
              && AgeOf(r.value.state.orders, inp.entryRef) == Some(0)
              && r.value.state.pending == NoSetup
              && s.pending.Displaced?
    ensures r.Success? ==> r.value.state.position.(breakEven := s.position.breakEven) == s.position
    ensures r.Success? && r.value.state.position.breakEven != s.position.breakEven ==>
              HasResubmit(r.value.intents)
    ensures r.Success? && HasResubmit(r.value.intents) ==>
              Due(s.position) && r.value.state.position.breakEven
    ensures s.position.size != 0.0 ==>
              && r.Success?
              && r.value.state.pending == s.pending
              && forall i :: 0 <= i < |r.value.intents| ==> !r.value.intents[i].Bracket?
    ensures s.position.size == 0.0 && !InWindow(inp.bar.time, p.tradeStart, p.tradeEnd) ==>
              r == Success(Prelude(p, s, inp))
    ensures r.Success? ==> forall ref :: ref != inp.entryRef ==>
              AgeOf(r.value.state.orders, ref) == NextAge(AgeOf(s.orders, ref), p.maxOrderBars)
    ensures r.Success? ==> forall ref :: Expires(s.orders, ref, p.maxOrderBars) && IsAlive(inp.broker, ref) ==>
              Cancel(ref) in r.value.intents
    ensures r.Success? ==> forall ref :: Cancel(ref) in r.value.intents ==>
              || (Expires(s.orders, ref, p.maxOrderBars) && IsAlive(inp.broker, ref))
              || (ref in LiveStops(inp.broker) && HasResubmit(r.value.intents))
  {
    var pre := Prelude(p, s, inp);
    if Blocked(p, pre.state, inp.equity) then Success(pre)
    else
      var m :- Manage(p, pre.state, inp);
      AppendAfterCancels(pre.intents, m.intents);
      TrackKeepsAgeBound(pre.state.orders, inp.entryRef, p.maxOrderBars);
      assert m.intents == [] ==> pre.intents + m.intents == pre.intents;
      Success(StepOut(m.state, pre.intents + m.intents))
  }

  /** An unblocked bar is the prelude followed by the rest of `next`: it
      fails exactly when the rest fails, and otherwise ends in the rest's
      state with the prelude's cancels before the rest's intents. */
  lemma StepUnblocked(p: Params, s: State, inp: BarInput)
    requires ValidParams(p)
    requires !Blocked(p, Prelude(p, s, inp).state, inp.equity)
    ensures Step(p, s, inp).Failure? <==> Manage(p, Prelude(p, s, inp).state, inp).Failure?
    ensures Step(p, s, inp).Success? ==>
              && Step(p, s, inp).value.state == Manage(p, Prelude(p, s, inp).state, inp).value.state
              && Step(p, s, inp).value.intents
                 == Prelude(p, s, inp).intents + Manage(p, Prelude(p, s, inp).state, inp).value.intents
  {
  }

  /** A broker order notification. */
  datatype OrderNote = OrderNote(ref: int, completed: bool, isBuy: bool, execPrice: real, execSize: real)

  /** A completed buy, which the strategy takes to be its entry filling. */
  predicate IsEntryFill(n: OrderNote)
  {
    n.completed && n.isBuy
  }

  /** `notify_order`: on an entry fill, record as risk the money lost if the
      bracket's stop (the broker order with the next reference) is hit, and
      re-arm the breakeven move. Any other notification changes nothing. */
  function NotifyOrder(s: State, n: OrderNote, broker: seq<BrokerOrder>): (r: Result<State, Fault>)
    ensures !IsEntryFill(n) ==> r == Success(s)
    ensures IsEntryFill(n) && Find(broker, n.ref + 1).None? ==> r == Failure(MissingStopOrder)
    ensures IsEntryFill(n) && Find(broker, n.ref + 1).Some? ==>
              && r.Success?
              && r.value.(position := s.position) == s
              && r.value.position.(risk := s.position.risk, breakEven := s.position.breakEven) == s.position
              && !r.value.position.breakEven
              && r.value.position.risk
                 == Abs(n.execPrice - Find(broker, n.ref + 1).value.createdPrice) * ContractMult * n.execSize
  {
    if !IsEntryFill(n) then Success(s)
    else
      match Find(broker, n.ref + 1)
      case None => Failure(MissingStopOrder)
      case Some(stop) =>
        var risk := Abs(n.execPrice - stop.createdPrice) * ContractMult * n.execSize;
        Success(s.(position := s.position.(risk := risk, breakEven := false)))
  }

  /** `notify_trade`: a closed trade adds its P/L to the day's total; an
      open trade changes nothing. */
  function NotifyTrade(s: State, closed: bool, pnl: real): (r: State)
    ensures r.(dailyLoss := s.dailyLoss) == s
    ensures r.dailyLoss - s.dailyLoss == (if closed then pnl else 0.0)
  {
    if closed then s.(dailyLoss := s.dailyLoss + pnl) else s
  }

  /** The broker's new view of the position; the strategy's own fields stay. */
  function SyncPosition(s: State, size: real, price: real, pnl: real): (r: State)
    ensures r.position.risk == s.position.risk && r.position.breakEven == s.position.breakEven
    ensures r.(position := s.position) == s
  {
    s.(position := s.position.(size := size, price := price, pnl := pnl))
  }

  /** Things that happen to the strategy, in delivery order. */
  datatype Event =
    | NewBar(input: BarInput)
    | OrderUpdate(note: OrderNote, broker: seq<BrokerOrder>)
    | TradeUpdate(closed: bool, pnl: real)
    | PositionUpdate(size: real, price: real, pnl: real)

  predicate IsFillEvent(e: Event)
  {
    e.OrderUpdate? && IsEntryFill(e.note)
  }

  function Apply(p: Params, s: State, e: Event): (r: Result<StepOut, Fault>)
    requires ValidParams(p)
    ensures !e.NewBar? && r.Success? ==> r.value.intents == []
    ensures !e.NewBar? && r.Success? ==>
              r.value.state.pending == s.pending && r.value.state.htf == s.htf && r.value.state.orders == s.orders
    ensures r.Success? && r.value.state.position.breakEven != s.position.breakEven ==>
              IsFillEvent(e) || (e.NewBar? && HasResubmit(r.value.intents))
    ensures r.Success? && HasResubmit(r.value.intents) ==> !s.position.breakEven && r.value.state.position.breakEven
    ensures r.Success? ==> Advances(s.pending, r.value.state.pending)
    ensures r.Success? ==> forall i :: 0 <= i < |r.value.intents| && r.value.intents[i].Bracket? ==>
              s.pending.Displaced? && r.value.state.pending.NoSetup?
  {
    match e
    case NewBar(inp) => Step(p, s, inp)
    case OrderUpdate(n, broker) =>
      var s' :- NotifyOrder(s, n, broker);
      Success(StepOut(s', []))
    case TradeUpdate(closed, pnl) => Success(StepOut(NotifyTrade(s, closed, pnl), []))
    case PositionUpdate(size, price, pnl) => Success(StepOut(SyncPosition(s, size, price, pnl), []))
  }

  /** The final state and, per event, the intents it produced. */
  datatype Trace = Trace(state: State, batches: seq<seq<Intent>>)

  /** Runs the events in order, stopping at the first one that raises. */
  function Replay(p: Params, s: State, es: seq<Event>): (r: Result<Trace, Fault>)
    requires ValidParams(p)
    ensures r.Success? ==> |r.value.batches| == |es|
    decreases |es|
  {
    if |es| == 0 then Success(Trace(s, []))
    else
      match Apply(p, s, es[0])
      case Failure(f) => Failure(f)
      case Success(o) =>
        match Replay(p, o.state, es[1..])
        case Failure(f) => Failure(f)
        case Success(t) => Success(Trace(t.state, [o.intents] + t.batches))
  }
}
